=== FILE: README.md ===
# PowerMarket-Sim clearing engine, in Dafny

PowerMarket-Sim is a browser simulation of a uniform-price wholesale
electricity market. Generators offer blocks of capacity (MW) at a price
($/MWh), and loads bid for blocks at the price they are willing to pay.
The engine in `utils/marketLogic.ts` does two jobs:

- `calculateClearing` sorts both sides into merit order: generators
  cheapest first, loads highest bid first, with ties broken by id. It then
  matches the two orders with a two-cursor sweep until a bid falls below an
  offer. The sweep yields the cleared volume and the clearing price, which
  is the last offer that traded. A greedy pass then hands the volume down
  each merit order and books every participant's revenue or cost and its
  surplus.
- `generateChartData` builds the corner points of the supply and demand
  step curves that the chart draws, and the length of the chart's quantity
  axis.

The project models both functions, together with `getPrevSum` and the
records of `types.ts`, and proves what they promise.

- `market_types.dfy` (module `MarketTypes`) holds the records as
  datatypes. It also holds `PrevSum` (`getPrevSum`) and the validity
  assumption the clearing proofs make: positive capacity and a
  non-negative price.
- `merit_order.dfy` (module `Ordering`) models the two sort comparators,
  the stable library sort as an insertion sort, the role filter, and
  `MeritOrder`. It proves that each merit order holds exactly that role's
  participants, ranked, with generator prices ascending and load prices
  descending.
- `matching.dfy` (module `Matching`) gives the sweep twice:
  - as a function `Run` over the state `Sweep`, with an invariant `Inv`
    that is proved to hold throughout;
  - as the loop of the source, `MatchingSweep`, proved equal to `Run`.
- `allocation.dfy` (module `Allocation`) gives the allocation pass in
  closed form (`Entry`, `Entries`, `ClearedOrders`) and as the two loops
  of the source. It proves:
  - conservation: each side hands out exactly the cleared volume;
  - the cashflows: every participant pays or is paid its quantity times
    the price, so revenue and cost balance;
  - surplus signs.
- `clearing.dfy` (module `MarketClearing`) models `calculateClearing` as a
  whole, in two versions:
  - `CalculateClearing`, without the exploratory loop, which is what the
    function evidently means to compute;
  - `CalculateClearingAsWritten`, with that loop (see Findings).
- `chart.dfy` (module `Charting`) models `generateChartData`, including
  the closed form of every curve point.
- `scenarios.dfy` (module `Scenarios`) works the default data of
  `constants.ts` through the model. On that data the written function never
  returns. The intended one clears 650 MW at 35 $/MWh with a market surplus
  of 809000.

Quantities and prices are mathematical reals. There is no I/O: the
participants come in as a parameter, and the results are returned values.

## Model

| member | source | states |
|---|---|---|
| MarketTypes.PrevSum | utils/marketLogic.ts:182-184 | `getPrevSum`: the total capacity of the first `k` blocks of a list |
| MarketTypes.PrevSumMonotone | utils/marketLogic.ts:182-184 | the prefix sum of capacities is non-negative and grows by at least a whole block from one block start to any later one |
| Ordering.IdCompare | utils/marketLogic.ts:6 | the id tie-break yields -1, 0 or 1, and 0 exactly for equal ids |
| Ordering.IdCompareAntisymmetric | utils/marketLogic.ts:6 | swapping the ids negates the comparison |
| Ordering.IdCompareTransitive | utils/marketLogic.ts:6 | the id order is transitive |
| Ordering.Comparator | utils/marketLogic.ts:6-10 | the sort comparator lets `a` stay before `b` exactly when `a` ranks first: a lower offer (generators) or a higher bid (loads), or an equal price and the smaller id |
| Ordering.RankedTotal | utils/marketLogic.ts:6-10 | any two participants are ranked one way or the other |
| Ordering.RankedTransitive | utils/marketLogic.ts:6-10 | the ranking is transitive |
| Ordering.Insert | utils/marketLogic.ts:6-10 | one step of the stable sort: a participant goes in front of the first one it ranks before, after every one it does not |
| Ordering.Sort | utils/marketLogic.ts:6-10 | the stable sort of one side by the comparator, as an insertion sort |
| Ordering.Filter | utils/marketLogic.ts:4-10 | the role filter: the participants of one role, in input order |
| Ordering.InsertPermutes | utils/marketLogic.ts:6 | one insertion step of the sort adds exactly the inserted participant |
| Ordering.SortPermutes | utils/marketLogic.ts:6 | sorting is a permutation of its input |
| Ordering.InsertSorted | utils/marketLogic.ts:6 | inserting into a ranked sequence keeps it ranked |
| Ordering.SortSorted | utils/marketLogic.ts:6 | the sort's output is ranked by the comparator |
| Ordering.SortIdentity | utils/marketLogic.ts:6 | a sequence already in merit order sorts to itself |
| Ordering.FilterCounts | utils/marketLogic.ts:5 | the role filter keeps each participant of the role as often as it occurs, and none of the other role |
| Ordering.FilterAppend | utils/marketLogic.ts:5 | filtering a concatenation filters each part, keeping the order |
| Ordering.FilterSelects | utils/marketLogic.ts:5 | a list of one role filters to itself for that role and to nothing for the other |
| Ordering.SortedPrices | utils/marketLogic.ts:4-10 | a ranked sequence has ascending offers (generators) or descending bids (loads) |
| Ordering.MeritOrder | utils/marketLogic.ts:4-10 | each merit order is a permutation of exactly that role's participants, ranked by price and then by id, with prices ascending for generators and descending for loads; validity carries over |
| Matching.Start | utils/marketLogic.ts:86-93 | the sweep starts with both cursors on the first block, each remainder that block's capacity (0 for an empty side), and no volume at price 0 |
| Matching.Advance | utils/marketLogic.ts:111-118 | a block left with at most 0.001 MW counts as exhausted: its cursor moves on and picks up the next block's capacity |
| Matching.Trade | utils/marketLogic.ts:99-118 | one trade never moves a cursor back and moves at least one forward |
| Matching.Run | utils/marketLogic.ts:95-123 | the sweep ends with both cursors in range and no feasible trade |
| Matching.AdvanceTracks | utils/marketLogic.ts:101-118 | trading from the block under a cursor keeps the cursor tracking the volume, and the volume does not pass the block's end |
| Matching.BelowVolumeIsBehind | utils/marketLogic.ts:182-184 | every block that starts below a volume lies at or before the block where the volume ends |
| Matching.StartInv | utils/marketLogic.ts:86-93 | the sweep invariant holds before the first iteration |
| Matching.OffersUpTo | utils/marketLogic.ts:106 | a volume ending in generator block `c` is priced at or above every offer it reaches |
| Matching.BidsUpTo | utils/marketLogic.ts:99 | a volume ending in load block `c`, at a price that block covers, is covered by every bid it reaches |
| Matching.TradePreservesInv | utils/marketLogic.ts:99-118 | a trade keeps the invariant, strictly adds volume and never lowers the price |
| Matching.RunPreservesInv | utils/marketLogic.ts:95-123 | the whole sweep keeps the invariant, and volume and price never decrease |
| Matching.TracksBounds | utils/marketLogic.ts:101-117 | the volume is at least the capacity before a cursor, less Epsilon per passed block, and at most the side's total capacity |
| Matching.TradedPrice | utils/marketLogic.ts:99-118 | once anything has traded, the price is the offer of the generator under the supply cursor or just behind it, the bid under the demand cursor or just behind it covers it, and so does the best bid |
| Matching.NoFurtherTrade | utils/marketLogic.ts:99-122 | where the sweep stops, no remaining bid covers any remaining offer |
| Matching.SweepOutcome | utils/marketLogic.ts:86-123 | the sweep's volume lies within both total capacities; its price is 0 without trade and otherwise an offer covered by the best bid; every block below the volume is priced on the right side of the price; all blocks before the cursors have traded; no later pair can trade |
| Matching.SweepPrice | utils/marketLogic.ts:99-118 | once the sweep has traded, its price is the offer of the generator that traded last, under the final supply cursor or just behind it, and is covered by the bid matched with it last, under the final demand cursor or just behind it |
| Matching.NoOverlapNoTrade | utils/marketLogic.ts:99-122 | when the best bid is below the cheapest offer, nothing trades and the price stays 0 |
| Matching.MatchingSweep | utils/marketLogic.ts:86-123 | the loop computes the sweep's price and volume: the volume within both total capacities, the price 0 without trade and otherwise an offer covered by the best bid |
| Allocation.Entry | utils/marketLogic.ts:137-150 | an entry belongs to its participant and clears a quantity between 0 and the capacity: the part of the volume inside the block, positive exactly when the block starts below the volume |
| Allocation.TradedEntry | utils/marketLogic.ts:141-170 | a block that starts below the volume gets the entry the loop pushes: quantity, payment at the price, surplus |
| Allocation.EntryCashflow | utils/marketLogic.ts:138-170 | a generator pays no cost and earns quantity times price; a load earns no revenue and pays quantity times price; surplus is quantity times the margin against the price |
| Allocation.EntrySurplusNonnegative | utils/marketLogic.ts:143-163 | an entry's surplus is not negative when a participant that trades is priced on the right side of the price |
| Allocation.EntriesUpTo | utils/marketLogic.ts:136-172 | the first `n` entries of a side number `n` |
| Allocation.ClearedOrders | utils/marketLogic.ts:130-172 | there is one entry per generator and one per load |
| Allocation.EntryAt | utils/marketLogic.ts:136-172 | the `k`-th entry of a side is its `k`-th participant's, for the block after the first `k` capacities |
| Allocation.GeneratorOrderAt | utils/marketLogic.ts:136-152 | position `k` of `clearedOrders` is generator `k`'s entry |
| Allocation.LoadOrderAt | utils/marketLogic.ts:156-172 | position `|G| + k` of `clearedOrders` is load `k`'s entry, after all generator entries |
| Allocation.GreedyFill | utils/marketLogic.ts:135-151 | quantities that fill the first `n` blocks in turn add up to the volume, or to those blocks' capacity if that is less |
| Allocation.EntriesFill | utils/marketLogic.ts:137-141 | each entry takes the part of the volume that falls in its block, so every entry after the volume is used up is 0 |
| Allocation.EntriesPaidAtPrice | utils/marketLogic.ts:142-162 | every entry of a side is paid, or pays, its quantity at the price |
| Allocation.PaymentsScale | utils/marketLogic.ts:142-162 | orders each paid at one price are paid in total that price times their total quantity |
| Allocation.SideFills | utils/marketLogic.ts:135-151 | a side hands out exactly the volume when the volume is within its total capacity |
| Allocation.SidePays | utils/marketLogic.ts:142-162 | a side is paid, or pays, price times the volume |
| Allocation.AllocationConserves | utils/marketLogic.ts:130-172 | the generator entries' quantities add up to the volume, and so do the load entries' |
| Allocation.PaymentsBalance | utils/marketLogic.ts:142-162 | generators' total revenue and loads' total cost both equal price times volume |
| Allocation.TotalSurplus | utils/marketLogic.ts:178 | the `reduce` that adds up the entries' surpluses |
| Allocation.TotalSurplusAppend | utils/marketLogic.ts:178 | the surplus total of two lists of orders is the sum of their totals |
| Allocation.TotalSurplusNonnegative | utils/marketLogic.ts:178 | a sum of non-negative surpluses is non-negative |
| Allocation.SideSurplusNonnegative | utils/marketLogic.ts:143-163 | every entry of a side has a non-negative surplus when the blocks below the volume are priced on the right side |
| Allocation.SurplusNonnegative | utils/marketLogic.ts:141-178 | every entry's surplus and the market surplus are non-negative under the same condition on both sides |
| Allocation.InTheMoney | utils/marketLogic.ts:136-172 | entry `k` belongs to generator `k` and entry `|G| + k` to load `k`; every generator that clears a quantity offers at most the price and every load that clears one bids at least it, when the blocks below the volume are priced on the right side |
| Allocation.RunningTotalStep | utils/marketLogic.ts:135-151 | the loops' running total `vAcc` is the volume already handed out, and an iteration appends exactly the next entry |
| Allocation.AllocateGenerators | utils/marketLogic.ts:134-152 | the generator loop returns exactly the generators' entries |
| Allocation.AllocateLoads | utils/marketLogic.ts:154-172 | the load loop returns exactly the loads' entries |
| MarketClearing.SideEmpty | utils/marketLogic.ts:4-41 | a merit order is empty exactly when no participant has that role |
| MarketClearing.Settle | utils/marketLogic.ts:86-179 | the result for two non-empty merit orders: the sweep's price and volume, the allocation's entries and their surplus total |
| MarketClearing.Clearing | utils/marketLogic.ts:3-180 | `calculateClearing` as its authors meant it: the empty result for a one-sided market, and otherwise the settlement of the two merit orders |
| MarketClearing.OneSidedClearsNothing | utils/marketLogic.ts:41-48 | with no generators or no loads the result is all zero with no entries at all, and only then are there no entries; otherwise the result is the settlement of the two merit orders, with one entry per participant |
| MarketClearing.ClearingPriceVolume | utils/marketLogic.ts:41-123 | the volume is non-negative and within both total capacities; the price is 0 without trade and otherwise an offer covered by the best bid; a best bid below the cheapest offer clears nothing at price 0; once anything clears, price and volume are where the sweep stopped, the price being the offer of the generator that traded last and covered by the bid matched with it last |
| MarketClearing.SettleConserves | utils/marketLogic.ts:130-176 | in the result, the generator entries and the load entries each add up to the cleared volume |
| MarketClearing.SettleSurplus | utils/marketLogic.ts:141-178 | in the result, every surplus and the market surplus are non-negative |
| MarketClearing.SettleInTheMoney | utils/marketLogic.ts:95-172 | in the result, the entries belong to the generators and then the loads in merit order; every generator with a nonzero cleared quantity offers at most the clearing price, and every load with one bids at least that price |
| MarketClearing.ClearingConserves | utils/marketLogic.ts:3-180 | in what `calculateClearing` returns, nothing clears without entries, and otherwise the generator entries and the load entries each add up to the cleared volume |
| MarketClearing.ClearingSurplus | utils/marketLogic.ts:3-180 | in what `calculateClearing` returns, every surplus and the market surplus are non-negative |
| MarketClearing.ClearingInTheMoney | utils/marketLogic.ts:3-180 | in what `calculateClearing` returns, the entries belong to the generators and then the loads in merit order, every generator that clears offers at most the clearing price and every load that clears bids at least it |
| MarketClearing.ClearSides | utils/marketLogic.ts:86-179 | the sweep, the two allocation loops and the surplus `reduce` compute the settlement of the merit orders |
| MarketClearing.CalculateClearing | utils/marketLogic.ts:3-180 | `calculateClearing` without its exploratory loop returns the clearing of the participants |
| MarketClearing.ExploratoryLoop | utils/marketLogic.ts:52-77 | the exploratory loop exits (within any budget) exactly when it does not stall, that is, when the best bid is below the cheapest offer |
| MarketClearing.CalculateClearingAsWritten | utils/marketLogic.ts:3-180 | the function as written returns exactly when the market is one-sided or the best bid is below the cheapest offer, and then it has cleared nothing at price 0 |
| Charting.Chart | utils/marketLogic.ts:187-269 | the chart of the participants: the supply and demand step curves over the two merit orders, and an axis 1.1 times the longer side's total capacity |
| Charting.Corners | utils/marketLogic.ts:247-251 | the corner points of `n` blocks number `2n` |
| Charting.Curve | utils/marketLogic.ts:243-266 | a curve has two points per block and two more, or none for an empty side |
| Charting.CornersAt | utils/marketLogic.ts:247-264 | corner `i` lies at the total capacity of the first `(i + 1) / 2` blocks, at the price and under the name of block `i / 2` |
| Charting.CurvePoints | utils/marketLogic.ts:243-266 | point `i` lies at the total capacity of the first `i / 2` blocks; the curve starts at (0, first price, "Start"), then steps through each block's price and name, and ends at (total capacity, sentinel price, "End") |
| Charting.CurveAdvances | utils/marketLogic.ts:243-266 | the x-coordinates never decrease, from 0 up to the side's total capacity |
| Charting.SupplyRises | utils/marketLogic.ts:243-254 | over generators in merit order the supply curve never falls, up to the sentinel at 1.5 times the last offer |
| Charting.DemandFalls | utils/marketLogic.ts:256-266 | over loads in merit order the demand curve never rises, down to the sentinel at 0 |
| Charting.ChartSides | utils/marketLogic.ts:188-266 | the supply (demand) data is empty exactly when there are no generators (loads), and otherwise has 2n + 2 points |
| Charting.ChartFits | utils/marketLogic.ts:199-266 | the axis length `maxQ` covers both sides' total capacities and every point of both curves |
| Charting.ClearingOnChart | utils/marketLogic.ts:214 | the cleared volume lies on the chart's quantity axis |
| Charting.CumulativeCapacity | utils/marketLogic.ts:199-211 | the running total `supplyCum` / `demandCum` ends at the side's total capacity |
| Charting.StepCurve | utils/marketLogic.ts:243-266 | each curve loop builds exactly the step curve of its merit order |
| Charting.GenerateChartData | utils/marketLogic.ts:187-269 | `generateChartData` returns the chart of the participants; the clearing result passed in has no effect |
| Scenarios.DefaultGenerators | constants.ts:5-9 | the default generators are already in merit order |
| Scenarios.DefaultLoads | constants.ts:12-15 | the default loads sort to city, data centre, factory, smart charging |
| Scenarios.DefaultSweep | utils/marketLogic.ts:95-123 | on the default merit orders the sweep ends having cleared 650 MW at 35 |
| Scenarios.SupplyAllocation | utils/marketLogic.ts:134-152 | on the default data wind, nuclear and coal run in full and the gas peakers not at all |
| Scenarios.DemandAllocation | utils/marketLogic.ts:154-172 | on the default data all loads but smart charging are served in full |
| Scenarios.DefaultSurplus | utils/marketLogic.ts:178 | the default market surplus is 809000 |
| Scenarios.DefaultScenarioStalls | constants.ts:5-15 | on the default data the best bid covers the cheapest offer, so the exploratory loop never exits |
| Scenarios.DefaultScenarioClears | constants.ts:5-15 | on the default data the intended clearing is 650 MW at 35 $/MWh, with those entries and a market surplus of 809000 |
| Scenarios.ThresholdClears | utils/marketLogic.ts:99-123 | a 100 MW offer at 10 and one at 12 against a 100.0015 MW bid at 20 clear 100.0015 MW at 12 |
| Scenarios.TinyClears | utils/marketLogic.ts:111-118 | with a 0.001 MW offer at 5 added, the bid is left with 0.0005 MW, which counts as exhausted, and only 100.001 MW clear |
| Scenarios.ThresholdLosesVolume | utils/marketLogic.ts:111-118 | adding a generator offering below the clearing price can lower the cleared volume |

## Left out

- MarketClearing.ExploratoryLoop: the loop runs on a budget of `fuel` iterations rather than without bound, so that the method has a termination measure. Running out of budget stands for the source looping forever. That is sound because the loop's state never changes, so any budget gives the same answer.
- MarketClearing.CalculateClearingAsWritten: non-termination is returned as `None` rather than modelled as divergence, for the same reason.
- Ordering.IdCompare: `localeCompare` is locale-dependent, and a collation may rank distinct ids as equal (canonically equivalent strings, for one). On such a tie the stable sort keeps the input order. The model instead picks one total order, the code-point lexicographic order, in which only equal ids tie.
- Quantities and prices are reals, not IEEE-754 doubles, so rounding is not modelled. Only the 0.001 threshold of the sweep carries meaning, and it is kept exactly as `Matching.Epsilon`.
- MarketClearing.Clearing: positive capacity and a non-negative price (`AllValid`) are required of every participant; the engine never checks them. The participant form (components/ParticipantForm.tsx:28) rejects only an empty field, and its capacity input (lines 117-119) allows 0, so a zero capacity can reach `calculateClearing`. What the source does with a block of capacity 0 or below is not modelled. With a 0 MW offer at 5 ahead of a 100 MW offer at 10 and a 50 MW bid at 7, for instance, the sweep sets the price to 5 and clears nothing.
- Monotonicity in supply is not claimed: a generator offered below the clearing price can lower the cleared volume. The sweep skips a block once at most 0.001 MW of it remains, and a new block can change which remainders fall under that threshold. `Scenarios.ThresholdLosesVolume` gives a market where one tiny cheap offer lowers the volume.
- The computations whose results are never used are left out:
  - the cumulative supply and demand arrays (lines 13-26);
  - `mcp`, `mcv` and `intersectionFound` (lines 29-31);
  - `maxDemand` and `maxSupply` (lines 37-38);
  - `sCum`, `dCum` and `sRem` of the exploratory loop (lines 54-67);
  - `allocatedV` and `marketSurplus` as declared (lines 131-132);
  - in `generateChartData`, the step records built by the two `map` calls (only their running totals feed `maxQ`), the empty `dataPoints` array (line 196), and the critical-point set, its sorted copy and the supply-price lookup (lines 216-239).
- `isMarginal` and `isCongested` (types.ts lines 31 and 40) are never set by the engine and are not modelled. Neither is the `ChartPoint` interface, which the engine does not use.
- The `Participant` model is immutable, so "the input array is left unchanged" holds by construction. The source's `filter` copies the array before `sort` reorders it in place; that in-place reordering is modelled as a function returning a new sequence.
- The React UI (App.tsx, the components and the root MarketChart.tsx) is not part of this model, and neither are the form's id generation and number parsing or the results table's own display order.
- Helper lemmas carry no row. Some only split a larger proof: `Matching.TradeStep`, `Allocation.EntrySettles`, `Charting.CurveParts`, `Charting.CurveX`, `Charting.CurveSteps` and `Ordering.ConsSorted`. The others are concrete evaluations of the scenarios: `Scenarios.SupplyRoles`, `DemandRoles`, `DefaultFilters`, `SupplySorted`, `DemandSort`, `SweepStep1`-`SweepStep5`, `DefaultsValid`, `ThresholdFilters`, `TinyFilters`, `ThresholdMeritOrders`, `TinyMeritOrders`, `ThresholdSweepWithout` and `ThresholdSweepWith`. `MarketTypes.Scale` and `MarketTypes.Distribute` are arithmetic lemmas that the allocation proofs use. Some functions that stand for source expressions carry no row either, because the rows of the lemmas about them state their properties:
  - `MarketClearing.Generators` and `MarketClearing.Loads`: the two sorted sides (lines 4-10);
  - `MarketClearing.NoClearing`: the empty result (lines 42-47);
  - `Allocation.Fill`, `Allocation.Entries`, `Allocation.TotalQuantity` and `Allocation.TotalPayment`: a block's quantity, a side's entries, and the totals the conservation and payment lemmas are stated with;
  - `Charting.TailPrice`: the sentinel prices (lines 253 and 265);
  - `MarketTypes.Min` and `MarketTypes.Max`: `Math.min` and `Math.max`.

## Findings

| source | as written | input that shows it | evidently intended | confidence | as-written member | corrected member |
|---|---|---|---|---|---|---|
| utils/marketLogic.ts:57-77 | the exploratory loop reads `generators[sIndex]` and `loads[dIndex]` but never changes `sIndex` or `dIndex`; its only exit is the `break` at line 63, so whenever both sides are present and the best bid covers the cheapest offer, `calculateClearing` never returns | the default participants of constants.ts: wind offers at 0 and the city load bids 2000 | the loop is scaffolding; the function should go straight on to the sweep of lines 86-123, which on the default data clears 650 MW at 35 $/MWh with a market surplus of 809000 | not executed | MarketClearing.CalculateClearingAsWritten, MarketClearing.ExploratoryLoop, Scenarios.DefaultScenarioStalls | MarketClearing.CalculateClearing, Scenarios.DefaultScenarioClears |

=== FILE: allocation.dfy ===
/** The allocation pass of `calculateClearing` (source lines 129-172): the
    cleared volume is handed out greedily down each merit order, and every
    participant's cashflow and surplus follow from the uniform price. */
module Allocation {
  import opened MarketTypes

  /** The part of `volume` that falls in the block of capacity `p.capacity`
      starting at cumulative capacity `before`. */
  function Fill(p: Participant, before: real, volume: real): real {
    if before >= volume then 0.0 else Min(p.capacity, volume - before)
  }

  /** The entry for participant `p` of side `side`, whose block starts at
      cumulative capacity `before`, when `volume` clears at `price`. */
  function Entry(side: Role, p: Participant, before: real, volume: real, price: real): (o: ClearedOrder)
    requires Valid(p)
    ensures o.participantId == p.id
    ensures 0.0 <= o.clearedQuantity <= p.capacity
    ensures o.clearedQuantity > 0.0 <==> before < volume
    ensures o.clearedQuantity == Fill(p, before, volume)
  {
    if before >= volume then ClearedOrder(p.id, 0.0, 0.0, 0.0, 0.0)
    else
      var q := Min(p.capacity, volume - before);
      match side
      case Generator =>
        var revenue := q * price;
        ClearedOrder(p.id, q, revenue, 0.0, revenue - q * p.price)
      case Load =>
        var cost := q * price;
        ClearedOrder(p.id, q, 0.0, cost, q * p.price - cost)
  }

  /** The entry of a participant whose block starts below the volume, spelt out as
      the allocation loops build it: quantity `q`, payment `pay` and surplus. */
  lemma TradedEntry(side: Role, p: Participant, before: real, volume: real, price: real,
                    q: real, pay: real, surplus: real)
    requires Valid(p) && before < volume
    requires q == Min(p.capacity, volume - before) && pay == q * price
    requires surplus == if side == Generator then pay - q * p.price else q * p.price - pay
    ensures Entry(side, p, before, volume, price)
      == if side == Generator then ClearedOrder(p.id, q, pay, 0.0, surplus)
         else ClearedOrder(p.id, q, 0.0, pay, surplus)
  {
  }

  /** What a generator receives (`side == Generator`) or a load pays. */
  function Payment(side: Role, o: ClearedOrder): real {
    if side == Generator then o.revenue else o.cost
  }

  /** The order is paid (generator), or pays (load), its quantity at `price`. */
  predicate PaidAtPrice(side: Role, o: ClearedOrder, price: real) {
    Payment(side, o) == o.clearedQuantity * price
  }

  /** A generator's order pays nothing and a load's earns nothing, and the
      surplus is the quantity times the participant's margin against `price`:
      price less offer for a generator, bid less price for a load. */
  predicate SurplusAtMargin(side: Role, o: ClearedOrder, p: Participant, price: real) {
    match side
    case Generator => o.cost == 0.0 && o.surplus == o.clearedQuantity * (price - p.price)
    case Load => o.revenue == 0.0 && o.surplus == o.clearedQuantity * (p.price - price)
  }

  /** A participant is paid, or pays, its quantity at the uniform price, and
      its surplus is its quantity times its margin against that price. */
  lemma EntryCashflow(side: Role, p: Participant, before: real, volume: real, price: real)
    requires Valid(p)
    ensures PaidAtPrice(side, Entry(side, p, before, volume, price), price)
    ensures SurplusAtMargin(side, Entry(side, p, before, volume, price), p, price)
  {
    var o := Entry(side, p, before, volume, price);
    if before < volume {
      var q := o.clearedQuantity;
      if side == Generator {
        assert q * price - q * p.price == q * (price - p.price);
      } else {
        assert q * p.price - q * price == q * (p.price - price);
      }
    }
  }

  /** A participant's surplus is not negative when, if it trades at all, its
      offer is at most the price (generator) or its bid at least the price (load). */
  lemma EntrySurplusNonnegative(side: Role, p: Participant, before: real, volume: real, price: real)
    requires Valid(p)
    requires before < volume ==> if side == Generator then p.price <= price else price <= p.price
    ensures Entry(side, p, before, volume, price).surplus >= 0.0
  {
    var o := Entry(side, p, before, volume, price);
    EntryCashflow(side, p, before, volume, price);
    if before < volume {
      var q := o.clearedQuantity;
      if side == Generator {
        assert q * (price - p.price) >= 0.0;
      } else {
        assert q * (p.price - price) >= 0.0;
      }
    }
  }

  /** The entries of the first `n` participants of one side, in merit order,
      each block starting where the capacities before it end. */
  function EntriesUpTo(side: Role, ps: seq<Participant>, n: nat, volume: real, price: real): (os: seq<ClearedOrder>)
    requires AllValid(ps) && n <= |ps|
    ensures |os| == n
  {
    if n == 0 then []
    else
      assert Valid(ps[n - 1]);
      EntriesUpTo(side, ps, n - 1, volume, price) + [Entry(side, ps[n - 1], PrevSum(ps, n - 1), volume, price)]
  }

  function Entries(side: Role, ps: seq<Participant>, volume: real, price: real): (os: seq<ClearedOrder>)
    requires AllValid(ps)
    ensures |os| == |ps|
  {
    EntriesUpTo(side, ps, |ps|, volume, price)
  }

  /** `clearedOrders`: one entry per generator in merit order, then one per load. */
  function ClearedOrders(G: seq<Participant>, L: seq<Participant>, volume: real, price: real): (os: seq<ClearedOrder>)
    requires AllValid(G) && AllValid(L)
    ensures |os| == |G| + |L|
  {
    Entries(Generator, G, volume, price) + Entries(Load, L, volume, price)
  }

  /** Left-to-right totals over a list of cleared orders. */
  function TotalQuantity(os: seq<ClearedOrder>): real {
    if os == [] then 0.0 else TotalQuantity(os[..|os| - 1]) + os[|os| - 1].clearedQuantity
  }

  function TotalPayment(side: Role, os: seq<ClearedOrder>): real {
    if os == [] then 0.0 else TotalPayment(side, os[..|os| - 1]) + Payment(side, os[|os| - 1])
  }

  /** `marketSurplus`: the `reduce` over every entry's surplus. */
  function TotalSurplus(os: seq<ClearedOrder>): real {
    if os == [] then 0.0 else TotalSurplus(os[..|os| - 1]) + os[|os| - 1].surplus
  }

  /** Entry `k` of a side belongs to its `k`-th participant and its block. */
  lemma {:induction false} EntryAt(side: Role, ps: seq<Participant>, n: nat, k: nat, volume: real, price: real)
    requires AllValid(ps) && k < n <= |ps|
    ensures Valid(ps[k])
    ensures EntriesUpTo(side, ps, n, volume, price)[k] == Entry(side, ps[k], PrevSum(ps, k), volume, price)
  {
    if k < n - 1 {
      EntryAt(side, ps, n - 1, k, volume, price);
    }
  }

  /** Generator `k`'s entry, at position `k` of the cleared orders. */
  lemma GeneratorOrderAt(G: seq<Participant>, L: seq<Participant>, volume: real, price: real, k: nat)
    requires AllValid(G) && AllValid(L) && k < |G|
    ensures Valid(G[k])
    ensures k < |ClearedOrders(G, L, volume, price)|
    ensures ClearedOrders(G, L, volume, price)[k] == Entry(Generator, G[k], PrevSum(G, k), volume, price)
  {
    EntryAt(Generator, G, |G|, k, volume, price);
    assert ClearedOrders(G, L, volume, price)[k] == Entries(Generator, G, volume, price)[k];
  }

  /** Load `k`'s entry, found after all the generator entries. */
  lemma LoadOrderAt(G: seq<Participant>, L: seq<Participant>, volume: real, price: real, k: nat)
    requires AllValid(G) && AllValid(L) && k < |L|
    ensures Valid(L[k])
    ensures |G| + k < |ClearedOrders(G, L, volume, price)|
    ensures ClearedOrders(G, L, volume, price)[|G| + k] == Entry(Load, L[k], PrevSum(L, k), volume, price)
  {
    EntryAt(Load, L, |L|, k, volume, price);
    assert ClearedOrders(G, L, volume, price)[|G| + k] == Entries(Load, L, volume, price)[k];
  }

  /** Greedy fill: orders whose quantities fill the first `n` blocks in turn
      together take exactly the volume, or all that capacity if that is less. */
  lemma {:induction false} GreedyFill(ps: seq<Participant>, os: seq<ClearedOrder>, n: nat, volume: real)
    requires AllValid(ps) && 0.0 <= volume && n <= |ps| && n <= |os|
    requires forall k {:trigger os[k]} :: 0 <= k < n ==> os[k].clearedQuantity == Fill(ps[k], PrevSum(ps, k), volume)
    ensures TotalQuantity(os[..n]) == Min(PrevSum(ps, n), volume)
  {
    if n > 0 {
      GreedyFill(ps, os, n - 1, volume);
      assert os[..n][..n - 1] == os[..n - 1];
      PrevSumMonotone(ps, n - 1, n);
    }
  }

  /** Entry `k` of a side takes the part of the volume in its block and is
      paid, or pays, for it at the price. */
  lemma EntrySettles(side: Role, ps: seq<Participant>, n: nat, k: nat, volume: real, price: real)
    requires AllValid(ps) && k < n <= |ps|
    ensures EntriesUpTo(side, ps, n, volume, price)[k].clearedQuantity == Fill(ps[k], PrevSum(ps, k), volume)
    ensures PaidAtPrice(side, EntriesUpTo(side, ps, n, volume, price)[k], price)
  {
    EntryAt(side, ps, n, k, volume, price);
    EntryCashflow(side, ps[k], PrevSum(ps, k), volume, price);
  }

  /** Each entry of a side takes the part of the volume that falls in its block. */
  lemma EntriesFill(side: Role, ps: seq<Participant>, volume: real, price: real)
    requires AllValid(ps)
    ensures forall k {:trigger Entries(side, ps, volume, price)[k]} :: 0 <= k < |ps| ==>
      Entries(side, ps, volume, price)[k].clearedQuantity == Fill(ps[k], PrevSum(ps, k), volume)
  {
    forall k | 0 <= k < |ps| {
      EntrySettles(side, ps, |ps|, k, volume, price);
    }
  }

  /** Every order of the list is paid, or pays, its quantity at `price`. */
  predicate AllPaidAtPrice(side: Role, os: seq<ClearedOrder>, price: real) {
    forall k {:trigger os[k]} :: 0 <= k < |os| ==> PaidAtPrice(side, os[k], price)
  }

  /** Orders paid, or paying, in total the price times their total quantity. */
  predicate PaidInTotal(side: Role, os: seq<ClearedOrder>, price: real) {
    TotalPayment(side, os) == price * TotalQuantity(os)
  }

  /** Orders each paid, or paying, their quantity at one price are paid, or
      pay, in total that price times their total quantity. */
  lemma {:induction false} PaymentsScale(side: Role, os: seq<ClearedOrder>, price: real)
    requires AllPaidAtPrice(side, os, price)
    ensures PaidInTotal(side, os, price)
  {
    if os != [] {
      var n := |os| - 1;
      assert PaidAtPrice(side, os[n], price);
      assert AllPaidAtPrice(side, os[..n], price) by {
        forall k | 0 <= k < n ensures PaidAtPrice(side, os[..n][k], price) {
          assert os[..n][k] == os[k];
        }
      }
      PaymentsScale(side, os[..n], price);
      Distribute(price, TotalQuantity(os), TotalQuantity(os[..n]), os[n].clearedQuantity);
    }
  }

  lemma EntriesPaidAtPrice(side: Role, ps: seq<Participant>, volume: real, price: real)
    requires AllValid(ps)
    ensures AllPaidAtPrice(side, Entries(side, ps, volume, price), price)
  {
    forall k | 0 <= k < |ps| ensures PaidAtPrice(side, Entries(side, ps, volume, price)[k], price) {
      EntrySettles(side, ps, |ps|, k, volume, price);
    }
  }

  /** A side hands out exactly the cleared volume when it is within the
      side's total capacity. */
  lemma SideFills(side: Role, ps: seq<Participant>, volume: real, price: real)
    requires AllValid(ps) && 0.0 <= volume <= PrevSum(ps, |ps|)
    ensures TotalQuantity(Entries(side, ps, volume, price)) == volume
  {
    var os := Entries(side, ps, volume, price);
    EntriesFill(side, ps, volume, price);
    GreedyFill(ps, os, |ps|, volume);
    assert os[..|ps|] == os;
  }

  /** A side is paid, or pays, the price times the cleared volume when that
      volume is within the side's total capacity. */
  lemma SidePays(side: Role, ps: seq<Participant>, volume: real, price: real)
    requires AllValid(ps) && 0.0 <= volume <= PrevSum(ps, |ps|)
    ensures TotalPayment(side, Entries(side, ps, volume, price)) == price * volume
  {
    var os := Entries(side, ps, volume, price);
    SideFills(side, ps, volume, price);
    EntriesPaidAtPrice(side, ps, volume, price);
    PaymentsScale(side, os, price);
    Scale(price, TotalQuantity(os), volume);
  }

  /** Both sides hand out exactly the cleared volume when it is within both
      total capacities. */
  lemma AllocationConserves(G: seq<Participant>, L: seq<Participant>, volume: real, price: real)
    requires AllValid(G) && AllValid(L)
    requires 0.0 <= volume <= PrevSum(G, |G|) && volume <= PrevSum(L, |L|)
    ensures TotalQuantity(ClearedOrders(G, L, volume, price)[..|G|]) == volume
    ensures TotalQuantity(ClearedOrders(G, L, volume, price)[|G|..]) == volume
  {
    var os := ClearedOrders(G, L, volume, price);
    SideFills(Generator, G, volume, price);
    SideFills(Load, L, volume, price);
    assert os[..|G|] == Entries(Generator, G, volume, price);
    assert os[|G|..] == Entries(Load, L, volume, price);
  }

  /** What the generators receive equals what the loads pay: price times the volume. */
  lemma PaymentsBalance(G: seq<Participant>, L: seq<Participant>, volume: real, price: real)
    requires AllValid(G) && AllValid(L)
    requires 0.0 <= volume <= PrevSum(G, |G|) && volume <= PrevSum(L, |L|)
    ensures TotalPayment(Generator, ClearedOrders(G, L, volume, price)[..|G|]) == price * volume
    ensures TotalPayment(Load, ClearedOrders(G, L, volume, price)[|G|..]) == price * volume
  {
    var os := ClearedOrders(G, L, volume, price);
    SidePays(Generator, G, volume, price);
    SidePays(Load, L, volume, price);
    assert os[..|G|] == Entries(Generator, G, volume, price);
    assert os[|G|..] == Entries(Load, L, volume, price);
  }

  /** The market surplus of two lists of orders is the sum of their surpluses. */
  lemma {:induction false} TotalSurplusAppend(a: seq<ClearedOrder>, b: seq<ClearedOrder>)
    ensures TotalSurplus(a + b) == TotalSurplus(a) + TotalSurplus(b)
  {
    if b == [] {
      assert a + b == a;
    } else {
      assert (a + b)[..|a + b| - 1] == a + b[..|b| - 1];
      TotalSurplusAppend(a, b[..|b| - 1]);
    }
  }

  lemma {:induction false} TotalSurplusNonnegative(os: seq<ClearedOrder>)
    requires forall k :: 0 <= k < |os| ==> os[k].surplus >= 0.0
    ensures TotalSurplus(os) >= 0.0
  {
    if os != [] {
      TotalSurplusNonnegative(os[..|os| - 1]);
    }
  }

  /** Every entry of one side has a non-negative surplus when every block
      that starts below the volume offers at most the price (generators) or
      bids at least the price (loads). */
  lemma SideSurplusNonnegative(side: Role, ps: seq<Participant>, volume: real, price: real)
    requires AllValid(ps)
    requires forall k {:trigger PrevSum(ps, k)} :: 0 <= k < |ps| && PrevSum(ps, k) < volume ==>
      if side == Generator then ps[k].price <= price else price <= ps[k].price
    ensures forall k {:trigger Entries(side, ps, volume, price)[k]} :: 0 <= k < |ps| ==>
      Entries(side, ps, volume, price)[k].surplus >= 0.0
  {
    forall k | 0 <= k < |ps| ensures Entries(side, ps, volume, price)[k].surplus >= 0.0 {
      EntryAt(side, ps, |ps|, k, volume, price);
      EntrySurplusNonnegative(side, ps[k], PrevSum(ps, k), volume, price);
    }
  }

  /** When every block below the volume is priced on the right side of the
      price, no entry has a negative surplus and neither has the market. */
  lemma SurplusNonnegative(G: seq<Participant>, L: seq<Participant>, volume: real, price: real)
    requires AllValid(G) && AllValid(L)
    requires forall k {:trigger PrevSum(G, k)} :: 0 <= k < |G| && PrevSum(G, k) < volume ==> G[k].price <= price
    requires forall k {:trigger PrevSum(L, k)} :: 0 <= k < |L| && PrevSum(L, k) < volume ==> price <= L[k].price
    ensures forall k :: 0 <= k < |G| + |L| ==> ClearedOrders(G, L, volume, price)[k].surplus >= 0.0
    ensures TotalSurplus(ClearedOrders(G, L, volume, price)) >= 0.0
  {
    var os := ClearedOrders(G, L, volume, price);
    var gs := Entries(Generator, G, volume, price);
    var ls := Entries(Load, L, volume, price);
    SideSurplusNonnegative(Generator, G, volume, price);
    SideSurplusNonnegative(Load, L, volume, price);
    forall k | 0 <= k < |os| ensures os[k].surplus >= 0.0 {
      if k < |G| {
        assert os[k] == gs[k];
      } else {
        assert os[k] == ls[k - |G|];
      }
    }
    TotalSurplusNonnegative(os);
  }

  /** Entry `k` is generator `k`'s and entry `|G| + k` is load `k`'s; every
      generator that clears a quantity offers at most the price, and every
      load that clears one bids at least the price. */
  lemma InTheMoney(G: seq<Participant>, L: seq<Participant>, volume: real, price: real)
    requires AllValid(G) && AllValid(L)
    requires forall k {:trigger PrevSum(G, k)} :: 0 <= k < |G| && PrevSum(G, k) < volume ==> G[k].price <= price
    requires forall k {:trigger PrevSum(L, k)} :: 0 <= k < |L| && PrevSum(L, k) < volume ==> price <= L[k].price
    ensures forall k :: 0 <= k < |G| && ClearedOrders(G, L, volume, price)[k].clearedQuantity > 0.0 ==>
      G[k].price <= price
    ensures forall k :: 0 <= k < |L| && ClearedOrders(G, L, volume, price)[|G| + k].clearedQuantity > 0.0 ==>
      price <= L[k].price
    ensures forall k :: 0 <= k < |G| ==> ClearedOrders(G, L, volume, price)[k].participantId == G[k].id
    ensures forall k :: 0 <= k < |L| ==> ClearedOrders(G, L, volume, price)[|G| + k].participantId == L[k].id
  {
    var os := ClearedOrders(G, L, volume, price);
    forall k | 0 <= k < |G| ensures os[k].participantId == G[k].id {
      GeneratorOrderAt(G, L, volume, price, k);
    }
    forall k | 0 <= k < |L| ensures os[|G| + k].participantId == L[k].id {
      LoadOrderAt(G, L, volume, price, k);
    }
    forall k | 0 <= k < |G| && os[k].clearedQuantity > 0.0 ensures G[k].price <= price {
      GeneratorOrderAt(G, L, volume, price, k);
    }
    forall k | 0 <= k < |L| && os[|G| + k].clearedQuantity > 0.0 ensures price <= L[k].price {
      LoadOrderAt(G, L, volume, price, k);
    }
  }

  /** One step of the allocation loops: the entry built from the running
      total `vAcc` is the participant's entry, and the running total moves on
      to the end of its block (or stays at the volume). */
  lemma RunningTotalStep(side: Role, ps: seq<Participant>, k: nat, vAcc: real, volume: real, price: real)
    requires AllValid(ps) && k < |ps| && 0.0 <= volume
    requires vAcc == Min(PrevSum(ps, k), volume)
    ensures Valid(ps[k])
    ensures EntriesUpTo(side, ps, k + 1, volume, price)
         == EntriesUpTo(side, ps, k, volume, price) + [Entry(side, ps[k], vAcc, volume, price)]
    ensures vAcc >= volume ==> vAcc == Min(PrevSum(ps, k + 1), volume)
    ensures vAcc < volume ==> vAcc + Min(ps[k].capacity, volume - vAcc) == Min(PrevSum(ps, k + 1), volume)
  {
    assert Valid(ps[k]);
    PrevSumMonotone(ps, k, k + 1);
    if PrevSum(ps, k) < volume {
      assert vAcc == PrevSum(ps, k);
    }
  }

  /** The generator loop of the allocation (source lines 134-152): down the
      merit order, each generator takes what is left of the volume up to its
      capacity, and the rest get empty entries. */
  method AllocateGenerators(G: seq<Participant>, volume: real, price: real)
    returns (orders: seq<ClearedOrder>)
    requires AllValid(G) && 0.0 <= volume
    ensures orders == Entries(Generator, G, volume, price)
  {
    orders := [];
    var vAcc := 0.0;
    for k := 0 to |G|
      invariant vAcc == Min(PrevSum(G, k), volume)
      invariant orders == EntriesUpTo(Generator, G, k, volume, price)
    {
      var gen := G[k];
      RunningTotalStep(Generator, G, k, vAcc, volume, price);
      if vAcc >= volume {
        assert ClearedOrder(gen.id, 0.0, 0.0, 0.0, 0.0) == Entry(Generator, gen, vAcc, volume, price);
        orders := orders + [ClearedOrder(gen.id, 0.0, 0.0, 0.0, 0.0)];
        continue;
      }
      var q := Min(gen.capacity, volume - vAcc);
      var revenue := q * price;
      var surplus := revenue - q * gen.price;
      TradedEntry(Generator, gen, vAcc, volume, price, q, revenue, surplus);
      orders := orders + [ClearedOrder(gen.id, q, revenue, 0.0, surplus)];
      vAcc := vAcc + q;
    }
  }

  /** The load loop of the allocation (source lines 154-172), the mirror image
      of the generator loop with the price paid as a cost. */
  method AllocateLoads(L: seq<Participant>, volume: real, price: real)
    returns (orders: seq<ClearedOrder>)
    requires AllValid(L) && 0.0 <= volume
    ensures orders == Entries(Load, L, volume, price)
  {
    orders := [];
    var vAcc := 0.0;
    for k := 0 to |L|
      invariant vAcc == Min(PrevSum(L, k), volume)
      invariant orders == EntriesUpTo(Load, L, k, volume, price)
    {
      var load := L[k];
      RunningTotalStep(Load, L, k, vAcc, volume, price);
      if vAcc >= volume {
        assert ClearedOrder(load.id, 0.0, 0.0, 0.0, 0.0) == Entry(Load, load, vAcc, volume, price);
        orders := orders + [ClearedOrder(load.id, 0.0, 0.0, 0.0, 0.0)];
        continue;
      }
      var q := Min(load.capacity, volume - vAcc);
      var cost := q * price;
      var surplus := q * load.price - cost;
      TradedEntry(Load, load, vAcc, volume, price, q, cost, surplus);
      orders := orders + [ClearedOrder(load.id, q, 0.0, cost, surplus)];
      vAcc := vAcc + q;
    }
  }
}

=== FILE: chart.dfy ===
/** `generateChartData`: the corner points of the supply and demand step
    curves drawn by the chart, and the width of its quantity axis. */
module Charting {
  import opened MarketTypes
  import opened Ordering
  import opened MarketClearing

  /** One point of a curve: quantity `x` in MW, price `y` in $/MWh, and the
      label shown for it. */
  datatype Point = Point(x: real, y: real, name: string)

  datatype ChartData = ChartData(supplyData: seq<Point>, demandData: seq<Point>, maxQ: real)

  /** The quantity axis reaches this far beyond the longer curve. */
  const Headroom: real := 1.1

  /** The supply curve ends on a sentinel at this multiple of the last offer. */
  const SupplyTailFactor: real := 1.5

  /** The price of the closing sentinel: half as much again as the last offer
      on the supply curve, 0 on the demand curve. */
  function TailPrice(role: Role, ps: seq<Participant>): real
    requires ps != []
  {
    if role == Generator then ps[|ps| - 1].price * SupplyTailFactor else 0.0
  }

  /** The two corners of each of the first `n` blocks: where the block starts
      and where it ends along the quantity axis, both at its price. */
  function Corners(ps: seq<Participant>, n: nat): (cs: seq<Point>)
    requires n <= |ps|
    ensures |cs| == 2 * n
  {
    if n == 0 then []
    else
      var p := ps[n - 1];
      Corners(ps, n - 1) + [Point(PrevSum(ps, n - 1), p.price, p.name), Point(PrevSum(ps, n), p.price, p.name)]
  }

  /** A step curve over participants in merit order (source lines 243-266):
      a leading point at quantity 0, the corners of every block, and the
      closing sentinel at the total capacity; no points at all for an empty side. */
  function Curve(role: Role, ps: seq<Participant>): (c: seq<Point>)
    ensures |c| == if ps == [] then 0 else 2 * |ps| + 2
  {
    if ps == [] then []
    else [Point(0.0, ps[0].price, "Start")] + Corners(ps, |ps|)
         + [Point(PrevSum(ps, |ps|), TailPrice(role, ps), "End")]
  }

  /** What `generateChartData` returns: the curves over the same two merit
      orders the clearing uses, and an axis 10% longer than the longer curve. */
  function Chart(ps: seq<Participant>): ChartData {
    var G := Generators(ps);
    var L := Loads(ps);
    ChartData(Curve(Generator, G), Curve(Load, L), Max(PrevSum(G, |G|), PrevSum(L, |L|)) * Headroom)
  }

  /** Corner `i` lies at the end of the first `(i + 1) / 2` blocks, at the
      price of block `i / 2`. */
  lemma {:induction false} CornersAt(ps: seq<Participant>, n: nat)
    requires n <= |ps|
    ensures forall i :: 0 <= i < 2 * n ==>
      Corners(ps, n)[i] == Point(PrevSum(ps, (i + 1) / 2), ps[i / 2].price, ps[i / 2].name)
  {
    if n > 0 {
      CornersAt(ps, n - 1);
    }
  }

  /** A curve is the leading point, the corners and the sentinel. */
  lemma CurveParts(role: Role, ps: seq<Participant>)
    requires ps != []
    ensures |Curve(role, ps)| == 2 * |ps| + 2
    ensures Curve(role, ps)[0] == Point(0.0, ps[0].price, "Start")
    ensures Curve(role, ps)[2 * |ps| + 1] == Point(PrevSum(ps, |ps|), TailPrice(role, ps), "End")
    ensures forall i :: 0 < i <= 2 * |ps| ==> Curve(role, ps)[i] == Corners(ps, |ps|)[i - 1]
  {
    CornersAt(ps, |ps|);
  }

  /** Point `i` of a curve lies at the total capacity of the first `i / 2` blocks. */
  lemma CurveX(role: Role, ps: seq<Participant>)
    ensures forall i :: 0 <= i < |Curve(role, ps)| ==> Curve(role, ps)[i].x == PrevSum(ps, i / 2)
  {
    if ps != [] {
      CurveParts(role, ps);
      CornersAt(ps, |ps|);
    }
  }

  /** Between the leading point and the sentinel, point `i` is a corner of
      block `(i - 1) / 2`, at its price and under its name. */
  lemma CurveSteps(role: Role, ps: seq<Participant>)
    ensures forall i :: 0 < i < |Curve(role, ps)| - 1 ==>
      Curve(role, ps)[i].y == ps[(i - 1) / 2].price && Curve(role, ps)[i].name == ps[(i - 1) / 2].name
  {
    if ps != [] {
      CurveParts(role, ps);
      CornersAt(ps, |ps|);
    }
  }

  /** The points of a curve in closed form: a curve has two points per block
      and two more, or none when the side is empty; point `i` lies at the
      total capacity of the first `i / 2` blocks; its price is the first
      block's at the start, block `(i - 1) / 2`'s on the steps, and the
      sentinel's at the end. */
  lemma CurvePoints(role: Role, ps: seq<Participant>)
    ensures |Curve(role, ps)| == if ps == [] then 0 else 2 * |ps| + 2
    ensures forall i :: 0 <= i < |Curve(role, ps)| ==> Curve(role, ps)[i].x == PrevSum(ps, i / 2)
    ensures ps != [] ==> Curve(role, ps)[0] == Point(0.0, ps[0].price, "Start")
    ensures forall i :: 0 < i < |Curve(role, ps)| - 1 ==>
      Curve(role, ps)[i].y == ps[(i - 1) / 2].price && Curve(role, ps)[i].name == ps[(i - 1) / 2].name
    ensures ps != [] ==>
      Curve(role, ps)[2 * |ps| + 1] == Point(PrevSum(ps, |ps|), TailPrice(role, ps), "End")
  {
    if ps != [] {
      CurveParts(role, ps);
    }
    CurveX(role, ps);
    CurveSteps(role, ps);
  }

  /** Along a curve of participants with positive capacities the quantity
      never decreases, from 0 up to the side's total capacity. */
  lemma CurveAdvances(role: Role, ps: seq<Participant>)
    requires AllValid(ps)
    ensures forall m, n :: 0 <= m <= n < |Curve(role, ps)| ==>
      0.0 <= Curve(role, ps)[m].x <= Curve(role, ps)[n].x <= PrevSum(ps, |ps|)
  {
    var c := Curve(role, ps);
    CurvePoints(role, ps);
    forall m, n | 0 <= m <= n < |c| ensures 0.0 <= c[m].x <= c[n].x <= PrevSum(ps, |ps|) {
      PrevSumMonotone(ps, m / 2, n / 2);
      PrevSumMonotone(ps, n / 2, |ps|);
    }
  }

  /** Offers in merit order make a supply curve that never falls, up to the
      sentinel above the last offer. */
  lemma SupplyRises(ps: seq<Participant>)
    requires AllValid(ps) && Ascending(ps)
    ensures forall m, n :: 0 <= m <= n < |Curve(Generator, ps)| ==>
      Curve(Generator, ps)[m].y <= Curve(Generator, ps)[n].y
  {
    var c := Curve(Generator, ps);
    CurvePoints(Generator, ps);
    if ps != [] {
      var last := |ps| - 1;
      assert Valid(ps[last]);
      forall m | 0 <= m < |c| ensures c[m].y <= ps[last].price * SupplyTailFactor {
        if 0 < m < |c| - 1 {
          assert c[m].y <= ps[last].price;
        }
      }
    }
  }

  /** Bids in merit order make a demand curve that never rises, down to the
      sentinel at price 0. */
  lemma DemandFalls(ps: seq<Participant>)
    requires AllValid(ps) && Descending(ps)
    ensures forall m, n :: 0 <= m <= n < |Curve(Load, ps)| ==>
      Curve(Load, ps)[m].y >= Curve(Load, ps)[n].y
  {
    var c := Curve(Load, ps);
    CurvePoints(Load, ps);
    if ps != [] {
      forall m | 0 <= m < |c| ensures c[m].y >= 0.0 {
        if m < |c| - 1 {
          assert Valid(ps[if m == 0 then 0 else (m - 1) / 2]);
        }
      }
    }
  }

  /** The chart draws a curve for a side exactly when the side has
      participants, and then two points per participant and two more. */
  lemma ChartSides(ps: seq<Participant>)
    ensures var c := Chart(ps);
      && (c.supplyData == [] <==> forall p :: p in ps ==> p.role != Generator)
      && (c.demandData == [] <==> forall p :: p in ps ==> p.role != Load)
      && (c.supplyData != [] ==> |c.supplyData| == 2 * |Generators(ps)| + 2)
      && (c.demandData != [] ==> |c.demandData| == 2 * |Loads(ps)| + 2)
  {
    SideEmpty(Generator, ps);
    SideEmpty(Load, ps);
  }

  /** Both curves fit on the quantity axis, which is at least as long as
      either side's total capacity. */
  lemma ChartFits(ps: seq<Participant>)
    requires AllValid(ps)
    ensures var c := Chart(ps);
      && PrevSum(Generators(ps), |Generators(ps)|) <= c.maxQ
      && PrevSum(Loads(ps), |Loads(ps)|) <= c.maxQ
      && (forall k :: 0 <= k < |c.supplyData| ==> 0.0 <= c.supplyData[k].x <= c.maxQ)
      && (forall k :: 0 <= k < |c.demandData| ==> 0.0 <= c.demandData[k].x <= c.maxQ)
  {
    var G := Generators(ps);
    var L := Loads(ps);
    CurveAdvances(Generator, G);
    CurveAdvances(Load, L);
    PrevSumMonotone(G, 0, |G|);
    PrevSumMonotone(L, 0, |L|);
  }

  /** The cleared volume lies on the quantity axis of the chart. */
  lemma ClearingOnChart(ps: seq<Participant>)
    requires AllValid(ps)
    ensures 0.0 <= Clearing(ps).clearedVolume <= Chart(ps).maxQ
  {
    ClearingPriceVolume(ps);
    ChartFits(ps);
  }

  /** `supplyCum` and `demandCum` (source lines 199-211): the running total of
      the capacities, which ends at the side's total capacity. */
  method CumulativeCapacity(ps: seq<Participant>) returns (cum: real)
    ensures cum == PrevSum(ps, |ps|)
  {
    cum := 0.0;
    for k := 0 to |ps|
      invariant cum == PrevSum(ps, k)
    {
      cum := cum + ps[k].capacity;
    }
  }

  /** One of the two curve loops (source lines 243-254 for supply, 256-266
      for demand): the leading point, then both corners of each block while
      the running total `acc` moves along the axis, then the sentinel. */
  method StepCurve(role: Role, ps: seq<Participant>) returns (data: seq<Point>)
    ensures data == Curve(role, ps)
  {
    data := [];
    var acc := 0.0;
    if |ps| > 0 {
      data := data + [Point(0.0, ps[0].price, "Start")];
      for k := 0 to |ps|
        invariant acc == PrevSum(ps, k)
        invariant data == [Point(0.0, ps[0].price, "Start")] + Corners(ps, k)
      {
        var p := ps[k];
        data := data + [Point(acc, p.price, p.name)];
        acc := acc + p.capacity;
        data := data + [Point(acc, p.price, p.name)];
      }
      var tail := if role == Generator then ps[|ps| - 1].price * SupplyTailFactor else 0.0;
      data := data + [Point(acc, tail, "End")];
    }
  }

  /** `generateChartData`. The clearing result passed in is never read: the
      chart depends on the participants alone. */
  method GenerateChartData(ps: seq<Participant>, clearingResult: ClearingResult) returns (c: ChartData)
    ensures c == Chart(ps)
  {
    var generators := Generators(ps);
    var loads := Loads(ps);
    var supplyCum := CumulativeCapacity(generators);
    var demandCum := CumulativeCapacity(loads);
    var maxQ := Max(supplyCum, demandCum) * Headroom;
    var supplyData := StepCurve(Generator, generators);
    var demandData := StepCurve(Load, loads);
    c := ChartData(supplyData, demandData, maxQ);
  }
}

=== FILE: clearing.dfy ===
/** `calculateClearing` as a whole: the merit orders, the shortcut for an
    empty side, the matching sweep, the allocation and the surplus total. */
module MarketClearing {
  import opened MarketTypes
  import opened Ordering
  import opened Matching
  import opened Allocation

  /** The generators in merit order (source lines 4-6). */
  function Generators(ps: seq<Participant>): seq<Participant> {
    MeritOrder(Generator, ps)
  }

  /** The loads in merit order (source lines 8-10). */
  function Loads(ps: seq<Participant>): seq<Participant> {
    MeritOrder(Load, ps)
  }

  /** The result returned when one side of the market is empty (lines 41-48). */
  const NoClearing: ClearingResult := ClearingResult(0.0, 0.0, [], 0.0)

  /** The market lacks one of its sides: no participant is a generator, or none is a load. */
  predicate OneSided(ps: seq<Participant>) {
    (forall p :: p in ps ==> p.role != Generator) || (forall p :: p in ps ==> p.role != Load)
  }

  /** The sweep, the greedy allocation at the sweep's price and the market
      surplus as the sum of all entries' surpluses (source lines 86-179), on
      the two merit orders. */
  function Settle(G: seq<Participant>, L: seq<Participant>): ClearingResult
    requires AllValid(G) && AllValid(L)
  {
    var f := Run(G, L, Start(G, L));
    var orders := ClearedOrders(G, L, f.volume, f.price);
    ClearingResult(f.price, f.volume, orders, TotalSurplus(orders))
  }

  /** What `calculateClearing` returns, with the exploratory loop of lines
      57-77 taken out. */
  function Clearing(ps: seq<Participant>): ClearingResult
    requires AllValid(ps)
  {
    var G := Generators(ps);
    var L := Loads(ps);
    if G == [] || L == [] then NoClearing else Settle(G, L)
  }

  /** A side's merit order is empty exactly when no participant has that role. */
  lemma SideEmpty(role: Role, ps: seq<Participant>)
    ensures MeritOrder(role, ps) == [] <==> forall p :: p in ps ==> p.role != role
  {
    var r := MeritOrder(role, ps);
    if r != [] {
      assert multiset(r)[r[0]] > 0;
    }
    forall p | p in ps && p.role == role ensures r != [] {
      assert multiset(ps)[p] > 0;
      assert multiset(r)[p] > 0;
    }
  }

  /** With no generators or no loads, nothing clears and no participant gets
      an entry, not even those on the side that is present; otherwise both
      merit orders are non-empty and the result is their settlement, with
      one entry for every participant. */
  lemma OneSidedClearsNothing(ps: seq<Participant>)
    requires AllValid(ps)
    ensures OneSided(ps) ==> Clearing(ps) == NoClearing
    ensures OneSided(ps) <==> Clearing(ps).clearedOrders == []
    ensures !OneSided(ps) ==>
      && Generators(ps) != [] && Loads(ps) != []
      && MeritOrdered(Generators(ps), Loads(ps))
      && Clearing(ps) == Settle(Generators(ps), Loads(ps))
      && |Clearing(ps).clearedOrders| == |Generators(ps)| + |Loads(ps)|
  {
    SideEmpty(Generator, ps);
    SideEmpty(Load, ps);
  }

  /** The clearing price and volume: the volume lies within both sides'
      total capacity; the price is 0 when nothing clears and otherwise a
      generator's offer that the highest bid covers; when the highest bid is
      below the cheapest offer nothing clears at all; and once anything
      clears, the price and volume are those where the sweep stopped, the
      price being the offer of the generator that traded last and covered by
      the bid matched with it last. */
  lemma ClearingPriceVolume(ps: seq<Participant>)
    requires AllValid(ps)
    ensures var r := Clearing(ps);
      var G := Generators(ps);
      var L := Loads(ps);
      && 0.0 <= r.clearedVolume <= PrevSum(G, |G|)
      && r.clearedVolume <= PrevSum(L, |L|)
      && (r.clearedVolume == 0.0 ==> r.clearingPrice == 0.0)
      && (r.clearedVolume > 0.0 ==>
            (exists k :: 0 <= k < |G| && r.clearingPrice == G[k].price) && r.clearingPrice <= L[0].price)
      && (G != [] && L != [] && L[0].price < G[0].price ==> r.clearedVolume == 0.0 && r.clearingPrice == 0.0)
      && (r.clearedVolume > 0.0 ==>
            var f := Run(G, L, Start(G, L));
            && r.clearingPrice == f.price && r.clearedVolume == f.volume
            && ((f.i < |G| && f.price == G[f.i].price) || (0 < f.i <= |G| && f.price == G[f.i - 1].price))
            && ((f.j < |L| && f.price <= L[f.j].price) || (0 < f.j <= |L| && f.price <= L[f.j - 1].price)))
  {
    var G := Generators(ps);
    var L := Loads(ps);
    PrevSumMonotone(G, 0, |G|);
    PrevSumMonotone(L, 0, |L|);
    if G != [] && L != [] {
      SweepOutcome(G, L);
      SweepPrice(G, L);
      if L[0].price < G[0].price {
        NoOverlapNoTrade(G, L);
      }
    }
  }

  /** Both sides deliver the cleared volume: the generator entries'
      quantities add up to it and so do the load entries'. */
  lemma SettleConserves(G: seq<Participant>, L: seq<Participant>)
    requires MeritOrdered(G, L)
    ensures var r := Settle(G, L);
      && |G| <= |r.clearedOrders|
      && TotalQuantity(r.clearedOrders[..|G|]) == r.clearedVolume
      && TotalQuantity(r.clearedOrders[|G|..]) == r.clearedVolume
  {
    var f := Run(G, L, Start(G, L));
    SweepOutcome(G, L);
    AllocationConserves(G, L, f.volume, f.price);
  }

  /** No participant ends with a negative surplus, so the market surplus is
      not negative either. */
  lemma SettleSurplus(G: seq<Participant>, L: seq<Participant>)
    requires MeritOrdered(G, L)
    ensures var r := Settle(G, L);
      && (forall k :: 0 <= k < |r.clearedOrders| ==> r.clearedOrders[k].surplus >= 0.0)
      && r.marketSurplus >= 0.0
  {
    var f := Run(G, L, Start(G, L));
    SweepOutcome(G, L);
    SurplusNonnegative(G, L, f.volume, f.price);
  }

  /** The entries belong to the generators and then the loads, in merit
      order; a generator that clears any quantity offers at most the clearing
      price, and a load that clears any quantity bids at least that price. */
  lemma SettleInTheMoney(G: seq<Participant>, L: seq<Participant>)
    requires MeritOrdered(G, L)
    ensures var r := Settle(G, L);
      && |r.clearedOrders| == |G| + |L|
      && (forall k :: 0 <= k < |G| && r.clearedOrders[k].clearedQuantity > 0.0 ==> G[k].price <= r.clearingPrice)
      && (forall k :: 0 <= k < |L| && r.clearedOrders[|G| + k].clearedQuantity > 0.0 ==> r.clearingPrice <= L[k].price)
      && (forall k :: 0 <= k < |G| ==> r.clearedOrders[k].participantId == G[k].id)
      && (forall k :: 0 <= k < |L| ==> r.clearedOrders[|G| + k].participantId == L[k].id)
  {
    var f := Run(G, L, Start(G, L));
    SweepOutcome(G, L);
    InTheMoney(G, L, f.volume, f.price);
  }

  /** What `calculateClearing` returns conserves energy: nothing clears
      when the market is one-sided, and otherwise the generator entries and
      the load entries each add up to the cleared volume. */
  lemma ClearingConserves(ps: seq<Participant>)
    requires AllValid(ps)
    ensures var r := Clearing(ps);
      var n := |Generators(ps)|;
      && (r.clearedOrders == [] ==> r.clearedVolume == 0.0)
      && (r.clearedOrders != [] ==>
            && n <= |r.clearedOrders|
            && TotalQuantity(r.clearedOrders[..n]) == r.clearedVolume
            && TotalQuantity(r.clearedOrders[n..]) == r.clearedVolume)
  {
    OneSidedClearsNothing(ps);
    if !OneSided(ps) {
      SettleConserves(Generators(ps), Loads(ps));
    }
  }

  /** No entry of what `calculateClearing` returns has a negative surplus,
      and neither has the market. */
  lemma ClearingSurplus(ps: seq<Participant>)
    requires AllValid(ps)
    ensures var r := Clearing(ps);
      && (forall k :: 0 <= k < |r.clearedOrders| ==> r.clearedOrders[k].surplus >= 0.0)
      && r.marketSurplus >= 0.0
  {
    OneSidedClearsNothing(ps);
    if !OneSided(ps) {
      SettleSurplus(Generators(ps), Loads(ps));
    }
  }

  /** In what `calculateClearing` returns, the entries follow the two merit
      orders, every generator that clears offers at most the clearing price
      and every load that clears bids at least that price. */
  lemma ClearingInTheMoney(ps: seq<Participant>)
    requires AllValid(ps)
    ensures var r := Clearing(ps);
      var G := Generators(ps);
      var L := Loads(ps);
      r.clearedOrders != [] ==>
        && |r.clearedOrders| == |G| + |L|
        && (forall k :: 0 <= k < |G| && r.clearedOrders[k].clearedQuantity > 0.0 ==> G[k].price <= r.clearingPrice)
        && (forall k :: 0 <= k < |L| && r.clearedOrders[|G| + k].clearedQuantity > 0.0 ==> r.clearingPrice <= L[k].price)
        && (forall k :: 0 <= k < |G| ==> r.clearedOrders[k].participantId == G[k].id)
        && (forall k :: 0 <= k < |L| ==> r.clearedOrders[|G| + k].participantId == L[k].id)
  {
    var G := Generators(ps);
    var L := Loads(ps);
    OneSidedClearsNothing(ps);
    if !OneSided(ps) {
      var r := Settle(G, L);
      assert Clearing(ps) == r;
      SettleInTheMoney(G, L);
      forall k | 0 <= k < |G| && r.clearedOrders[k].clearedQuantity > 0.0 ensures G[k].price <= r.clearingPrice {
      }
      forall k | 0 <= k < |L| && r.clearedOrders[|G| + k].clearedQuantity > 0.0 ensures r.clearingPrice <= L[k].price {
      }
      forall k | 0 <= k < |G| ensures r.clearedOrders[k].participantId == G[k].id {
      }
      forall k | 0 <= k < |L| ensures r.clearedOrders[|G| + k].participantId == L[k].id {
      }
    }
  }

  /** The sweep, the allocation and the surplus total (source lines 86-179). */
  method ClearSides(G: seq<Participant>, L: seq<Participant>) returns (r: ClearingResult)
    requires MeritOrdered(G, L)
    ensures r == Settle(G, L)
  {
    var clearingPrice, clearedVolume := MatchingSweep(G, L);
    var generatorOrders := AllocateGenerators(G, clearedVolume, clearingPrice);
    var loadOrders := AllocateLoads(L, clearedVolume, clearingPrice);
    var clearedOrders := generatorOrders + loadOrders;
    r := ClearingResult(clearingPrice, clearedVolume, clearedOrders, TotalSurplus(clearedOrders));
  }

  /** `calculateClearing` as its authors evidently meant it: the source
      without the exploratory loop of lines 57-77. */
  method CalculateClearing(ps: seq<Participant>) returns (r: ClearingResult)
    requires AllValid(ps)
    ensures r == Clearing(ps)
  {
    var generators := Generators(ps);
    var loads := Loads(ps);
    if |generators| == 0 || |loads| == 0 {
      return NoClearing;
    }
    r := ClearSides(generators, loads);
  }

  /** Both sides are present and the highest bid covers the cheapest offer:
      the condition under which the exploratory loop never exits. */
  predicate Stalls(G: seq<Participant>, L: seq<Participant>) {
    |G| > 0 && |L| > 0 && L[0].price >= G[0].price
  }

  /** The exploratory loop of the source (lines 57-77). Its body reads the
      blocks under `sIndex` and `dIndex` but never moves either cursor, so it
      leaves only through its `break`, on the first pair. The loop runs here on
      a budget of `fuel` further iterations; `exited` is false when the
      budget ran out. It exits, whatever the budget, exactly when it does
      not stall. */
  method ExploratoryLoop(G: seq<Participant>, L: seq<Participant>, fuel: nat) returns (exited: bool)
    ensures exited <==> !Stalls(G, L)
  {
    var sIndex, dIndex := 0, 0;
    var budget := fuel;
    while sIndex < |G| && dIndex < |L|
      invariant sIndex == 0 && dIndex == 0
      decreases budget
    {
      var supply := G[sIndex];
      var demand := L[dIndex];
      if demand.price < supply.price {
        break;
      }
      if budget == 0 {
        return false;
      }
      budget := budget - 1;
    }
    return true;
  }

  /** `calculateClearing` as written: the exploratory loop stands between
      the shortcut for an empty side and the sweep. `None` stands for the
      loop that has not exited within `fuel` iterations. The function returns
      exactly when the loop does not stall, and then nothing has cleared. */
  method CalculateClearingAsWritten(ps: seq<Participant>, fuel: nat) returns (r: Option<ClearingResult>)
    requires AllValid(ps)
    ensures r.None? <==> Stalls(Generators(ps), Loads(ps))
    ensures r.Some? ==> r.value == Clearing(ps)
    ensures r.Some? ==> r.value.clearedVolume == 0.0 && r.value.clearingPrice == 0.0
  {
    var generators := Generators(ps);
    var loads := Loads(ps);
    if |generators| == 0 || |loads| == 0 {
      return Some(NoClearing);
    }
    var exited := ExploratoryLoop(generators, loads, fuel);
    if !exited {
      return None;
    }
    var result := ClearSides(generators, loads);
    NoOverlapNoTrade(generators, loads);
    return Some(result);
  }
}

=== FILE: market_types.dfy ===
/** The records of the market simulator: participants, cleared orders and the
    clearing result, with the small numeric helpers the engine uses. */
module MarketTypes {

  /** Whether a participant sells energy (generator) or buys it (load). */
  datatype Role = Generator | Load

  /** Fuel category of a generator; cosmetic, never read by the engine. */
  datatype Fuel = Solar | Wind | Hydro | Nuclear | Coal | Gas | Battery

  datatype Option<T> = None | Some(value: T)

  /** One offer (generator) or bid (load). `capacity` is in MW; `price` in
      $/MWh is the willingness to accept (generator) or to pay (load). */
  datatype Participant = Participant(
    id: string,
    name: string,
    role: Role,
    fuel: Option<Fuel>,
    capacity: real,
    price: real,
    color: string)

  /** What one participant receives from the clearing. */
  datatype ClearedOrder = ClearedOrder(
    participantId: string,
    clearedQuantity: real,
    revenue: real,
    cost: real,
    surplus: real)

  datatype ClearingResult = ClearingResult(
    clearingPrice: real,
    clearedVolume: real,
    clearedOrders: seq<ClearedOrder>,
    marketSurplus: real)

  /** The engine's precondition: positive capacity and non-negative price.
      Neither the engine nor the entry form checks it. */
  predicate Valid(p: Participant) {
    p.capacity > 0.0 && p.price >= 0.0
  }

  predicate AllValid(ps: seq<Participant>) {
    forall p :: p in ps ==> Valid(p)
  }

  /** `Math.min` */
  function Min(a: real, b: real): real {
    if a <= b then a else b
  }

  /** `Math.max` */
  function Max(a: real, b: real): real {
    if a >= b then a else b
  }

  /** Products of equal factors; stated on named terms so that callers need
      not rewrite inside a product. */
  lemma Scale(a: real, b: real, c: real)
    requires b == c
    ensures a * b == a * c
  {
  }

  lemma Distribute(a: real, d: real, b: real, c: real)
    requires d == b + c
    ensures a * d == a * b + c * a
  {
  }

  /** `getPrevSum(list, idx)`: the total capacity of the first `idx` participants
      (`slice(0, idx)` stops at the end of the list). */
  function PrevSum(ps: seq<Participant>, idx: nat): real
  {
    if idx == 0 || ps == [] then 0.0
    else if idx > |ps| then PrevSum(ps, |ps|)
    else PrevSum(ps, idx - 1) + ps[idx - 1].capacity
  }

  /** Cumulative capacity is non-negative and grows by at least a whole block
      from one block start to any later one. */
  lemma {:induction false} PrevSumMonotone(ps: seq<Participant>, a: nat, b: nat)
    requires AllValid(ps) && a <= b <= |ps|
    ensures 0.0 <= PrevSum(ps, a) <= PrevSum(ps, b)
    ensures a < b ==> PrevSum(ps, a) + ps[a].capacity <= PrevSum(ps, b)
  {
    if b > 0 {
      assert Valid(ps[b - 1]);
      if a == b {
        PrevSumMonotone(ps, b - 1, b - 1);
      } else {
        PrevSumMonotone(ps, a, b - 1);
      }
    }
  }
}

=== FILE: matching.dfy ===
/** The two-cursor matching sweep of `calculateClearing` (source lines 86-123):
    the cheapest remaining generator block is matched against the highest
    remaining load block until a bid falls below an offer or a side runs out. */
module Matching {
  import opened MarketTypes
  import opened Ordering

  /** A block whose remainder is at or below this many MW counts as exhausted. */
  const Epsilon: real := 0.001

  /** The sweep's variables: cursors `i` (generators) and `j` (loads), the
      untraded remainders of the blocks under them, and the running totals. */
  datatype Sweep = Sweep(i: nat, j: nat, genRem: real, loadRem: real, volume: real, price: real)

  /** The state before the loop (source lines 86-93). */
  function Start(G: seq<Participant>, L: seq<Participant>): Sweep {
    Sweep(0, 0,
          if |G| > 0 then G[0].capacity else 0.0,
          if |L| > 0 then L[0].capacity else 0.0,
          0.0, 0.0)
  }

  /** Both cursors are in range and the bid covers the offer: the loop trades. */
  predicate Feasible(G: seq<Participant>, L: seq<Participant>, s: Sweep) {
    s.i < |G| && s.j < |L| && L[s.j].price >= G[s.i].price
  }

  /** Subtracting a trade left `rem` in block `c`: a block at or below
      Epsilon is exhausted and the cursor moves on, refreshing the remainder
      with the next block's capacity if there is one (lines 111-118). */
  function Advance(ps: seq<Participant>, c: nat, rem: real): (nat, real) {
    if rem <= Epsilon then (c + 1, if c + 1 < |ps| then ps[c + 1].capacity else rem)
    else (c, rem)
  }

  /** One trading iteration (source lines 100-118). Every trade empties the
      smaller block exactly, so at least one cursor moves on. */
  function Trade(G: seq<Participant>, L: seq<Participant>, s: Sweep): (r: Sweep)
    requires s.i < |G| && s.j < |L|
    ensures s.i <= r.i <= |G| && s.j <= r.j <= |L|
    ensures s.i + s.j < r.i + r.j
  {
    var tradeQ := Min(s.genRem, s.loadRem);
    var (i, genRem) := Advance(G, s.i, s.genRem - tradeQ);
    var (j, loadRem) := Advance(L, s.j, s.loadRem - tradeQ);
    Sweep(i, j, genRem, loadRem, s.volume + tradeQ, G[s.i].price)
  }

  /** The loop from state `s` to its exit: it stops only where no trade is feasible. */
  function Run(G: seq<Participant>, L: seq<Participant>, s: Sweep): (r: Sweep)
    requires s.i <= |G| && s.j <= |L|
    ensures r.i <= |G| && r.j <= |L| && !Feasible(G, L, r)
    decreases |G| - s.i + |L| - s.j
  {
    if Feasible(G, L, s) then Run(G, L, Trade(G, L, s)) else s
  }

  /** How far along one side's curve a cursor has got: the blocks before `c`
      plus what block `c` has already traded. */
  function Reached(ps: seq<Participant>, c: nat, rem: real): real
    requires c <= |ps|
  {
    if c < |ps| then PrevSum(ps, c) + ps[c].capacity - rem else PrevSum(ps, |ps|)
  }

  /** One side's part of the invariant: the remainder lies inside its block,
      and the volume is the distance reached along that side's curve, less at
      most Epsilon for each exhausted block. */
  ghost predicate Tracks(ps: seq<Participant>, c: nat, rem: real, volume: real) {
    && c <= |ps|
    && (c < |ps| ==> 0.0 < rem <= ps[c].capacity)
    && Reached(ps, c, rem) - Epsilon * (c as real) <= volume <= Reached(ps, c, rem)
  }

  /** Trading `t` from the block under a tracking cursor keeps it tracking the
      new volume, and that volume does not pass the end of the block. */
  lemma AdvanceTracks(ps: seq<Participant>, c: nat, rem: real, t: real, volume: real)
    requires AllValid(ps) && c < |ps| && Tracks(ps, c, rem, volume) && 0.0 <= t <= rem
    ensures Tracks(ps, Advance(ps, c, rem - t).0, Advance(ps, c, rem - t).1, volume + t)
    ensures volume + t <= PrevSum(ps, c + 1)
  {
    assert Valid(ps[c]);
    var (c', rem') := Advance(ps, c, rem - t);
    if c' < |ps| { assert Valid(ps[c']); }
  }

  /** A block that starts below `volume` lies at or before the block `c` whose end
      `volume` does not pass. */
  lemma BelowVolumeIsBehind(ps: seq<Participant>, c: nat, volume: real)
    requires AllValid(ps) && c < |ps| && volume <= PrevSum(ps, c + 1)
    ensures forall k {:trigger PrevSum(ps, k)} :: 0 <= k < |ps| && PrevSum(ps, k) < volume ==> k <= c
  {
    forall k | c < k < |ps| ensures volume <= PrevSum(ps, k) {
      PrevSumMonotone(ps, c + 1, k);
    }
  }

  /** Before the first trade the price is 0; afterwards it is the offer of the
      generator that traded last, which is under the cursor or just behind it. */
  ghost predicate PriceSet(G: seq<Participant>, s: Sweep) {
    && (s.volume == 0.0 ==> s.price == 0.0)
    && (s.volume > 0.0 ==>
          (s.i < |G| && s.price == G[s.i].price) || (0 < s.i <= |G| && s.price == G[s.i - 1].price))
  }

  /** Once anything has traded, the price is covered by the bid it was matched
      with last: the load under the demand cursor, or the one just behind it
      when that trade exhausted it. */
  ghost predicate BidPriced(L: seq<Participant>, s: Sweep) {
    s.volume > 0.0 ==>
      (s.j < |L| && s.price <= L[s.j].price) || (0 < s.j <= |L| && s.price <= L[s.j - 1].price)
  }

  /** Every generator block that starts below the volume offers at most the price. */
  ghost predicate OffersCovered(G: seq<Participant>, volume: real, price: real) {
    forall k {:trigger PrevSum(G, k)} :: 0 <= k < |G| && PrevSum(G, k) < volume ==> G[k].price <= price
  }

  /** Every load block that starts below the volume bids at least the price. */
  ghost predicate BidsCover(L: seq<Participant>, volume: real, price: real) {
    forall k {:trigger PrevSum(L, k)} :: 0 <= k < |L| && PrevSum(L, k) < volume ==> price <= L[k].price
  }

  /** What holds of the sweep's variables at every iteration. */
  ghost predicate Inv(G: seq<Participant>, L: seq<Participant>, s: Sweep) {
    && 0.0 <= s.volume
    && Tracks(G, s.i, s.genRem, s.volume)
    && Tracks(L, s.j, s.loadRem, s.volume)
    && PriceSet(G, s)
    && BidPriced(L, s)
    && OffersCovered(G, s.volume, s.price)
    && BidsCover(L, s.volume, s.price)
  }

  /** The two lists the sweep is given: valid and in merit order. */
  ghost predicate MeritOrdered(G: seq<Participant>, L: seq<Participant>) {
    AllValid(G) && AllValid(L) && Ascending(G) && Descending(L)
  }

  lemma StartInv(G: seq<Participant>, L: seq<Participant>)
    requires MeritOrdered(G, L)
    ensures Inv(G, L, Start(G, L))
  {
    if |G| > 0 { assert Valid(G[0]); }
    if |L| > 0 { assert Valid(L[0]); }
    forall k | 0 <= k < |G| ensures PrevSum(G, k) >= 0.0 {
      PrevSumMonotone(G, 0, k);
    }
    forall k | 0 <= k < |L| ensures PrevSum(L, k) >= 0.0 {
      PrevSumMonotone(L, 0, k);
    }
  }

  /** A volume that ends inside generator block `c` is priced at or above
      every offer it reaches. */
  lemma OffersUpTo(G: seq<Participant>, c: nat, volume: real)
    requires AllValid(G) && Ascending(G) && c < |G| && volume <= PrevSum(G, c + 1)
    ensures OffersCovered(G, volume, G[c].price)
  {
    BelowVolumeIsBehind(G, c, volume);
  }

  /** A volume that ends inside load block `c`, at a price that block bids for,
      is covered by every bid it reaches. */
  lemma BidsUpTo(L: seq<Participant>, c: nat, volume: real, price: real)
    requires AllValid(L) && Descending(L) && c < |L| && volume <= PrevSum(L, c + 1) && price <= L[c].price
    ensures BidsCover(L, volume, price)
  {
    BelowVolumeIsBehind(L, c, volume);
  }

  /** A trade keeps the invariant, adds volume and never lowers the price. */
  lemma TradePreservesInv(G: seq<Participant>, L: seq<Participant>, s: Sweep)
    requires MeritOrdered(G, L) && Inv(G, L, s) && Feasible(G, L, s)
    ensures Inv(G, L, Trade(G, L, s))
    ensures Trade(G, L, s).volume > s.volume
    ensures Trade(G, L, s).price >= s.price
  {
    var r := Trade(G, L, s);
    var t := Min(s.genRem, s.loadRem);
    assert r.i == Advance(G, s.i, s.genRem - t).0 && r.genRem == Advance(G, s.i, s.genRem - t).1;
    assert r.j == Advance(L, s.j, s.loadRem - t).0 && r.loadRem == Advance(L, s.j, s.loadRem - t).1;
    assert r.volume == s.volume + t && r.price == G[s.i].price;
    assert 0.0 < t;
    AdvanceTracks(G, s.i, s.genRem, t, s.volume);
    AdvanceTracks(L, s.j, s.loadRem, t, s.volume);
    OffersUpTo(G, s.i, r.volume);
    BidsUpTo(L, s.j, r.volume, r.price);
    assert s.price <= r.price by {
      if s.volume == 0.0 {
        assert Valid(G[s.i]);
      } else if s.price != G[s.i].price {
        assert G[s.i - 1].price <= G[s.i].price;
      }
    }
  }

  lemma {:induction false} RunPreservesInv(G: seq<Participant>, L: seq<Participant>, s: Sweep)
    requires MeritOrdered(G, L) && Inv(G, L, s)
    ensures Inv(G, L, Run(G, L, s))
    ensures Run(G, L, s).volume >= s.volume && Run(G, L, s).price >= s.price
    decreases |G| - s.i + |L| - s.j
  {
    if Feasible(G, L, s) {
      TradePreservesInv(G, L, s);
      RunPreservesInv(G, L, Trade(G, L, s));
    }
  }

  /** A tracking cursor has got at least to the start of its block, and the
      volume stays within the side's total capacity. */
  lemma TracksBounds(ps: seq<Participant>, c: nat, rem: real, volume: real)
    requires AllValid(ps) && Tracks(ps, c, rem, volume)
    ensures PrevSum(ps, c) - Epsilon * (c as real) <= volume <= PrevSum(ps, |ps|)
  {
    if c < |ps| {
      assert Valid(ps[c]);
      PrevSumMonotone(ps, c + 1, |ps|);
    }
  }

  /** Once the sweep has traded, its price is the offer of the generator that
      traded last (under the supply cursor or just behind it), the bid matched
      with it last covers it, and so does the best bid. */
  lemma TradedPrice(G: seq<Participant>, L: seq<Participant>, f: Sweep)
    requires Inv(G, L, f) && f.volume > 0.0 && |L| > 0
    ensures (f.i < |G| && f.price == G[f.i].price) || (0 < f.i <= |G| && f.price == G[f.i - 1].price)
    ensures (f.j < |L| && f.price <= L[f.j].price) || (0 < f.j <= |L| && f.price <= L[f.j - 1].price)
    ensures exists k :: 0 <= k < |G| && f.price == G[k].price
    ensures f.price <= L[0].price
  {
    assert PriceSet(G, f);
    var k := if f.i < |G| && f.price == G[f.i].price then f.i else f.i - 1;
    assert f.price == G[k].price;
    assert BidsCover(L, f.volume, f.price);
    assert PrevSum(L, 0) < f.volume;
  }

  /** At a stop with both cursors in range, no later pair can trade. */
  lemma NoFurtherTrade(G: seq<Participant>, L: seq<Participant>, f: Sweep)
    requires Ascending(G) && Descending(L) && f.i <= |G| && f.j <= |L| && !Feasible(G, L, f)
    ensures forall k, m :: f.i <= k < |G| && f.j <= m < |L| ==> L[m].price < G[k].price
  {
    forall k, m | f.i <= k < |G| && f.j <= m < |L| ensures L[m].price < G[k].price {
      assert L[m].price <= L[f.j].price < G[f.i].price <= G[k].price;
    }
  }

  /** What the sweep delivers on merit-ordered lists (V the volume, P the price):
      V lies within both total capacities; P is 0 when nothing traded and
      otherwise a generator's offer covered by the best bid (`SweepPrice`
      names the offer and the bid); every block below V
      on the supply side offers at most P and on the demand side bids at least
      P; all blocks before the final cursors have traded (up to Epsilon each);
      and no pair from the cursors on can still trade. */
  lemma SweepOutcome(G: seq<Participant>, L: seq<Participant>)
    requires MeritOrdered(G, L)
    ensures var f := Run(G, L, Start(G, L));
      && 0.0 <= f.volume <= PrevSum(G, |G|)
      && f.volume <= PrevSum(L, |L|)
      && (f.volume == 0.0 ==> f.price == 0.0)
      && (f.volume > 0.0 ==> (exists k :: 0 <= k < |G| && f.price == G[k].price) && f.price <= L[0].price)
      && OffersCovered(G, f.volume, f.price)
      && BidsCover(L, f.volume, f.price)
      && PrevSum(G, f.i) - Epsilon * (f.i as real) <= f.volume
      && PrevSum(L, f.j) - Epsilon * (f.j as real) <= f.volume
      && (forall k, m :: f.i <= k < |G| && f.j <= m < |L| ==> L[m].price < G[k].price)
  {
    var f := Run(G, L, Start(G, L));
    StartInv(G, L);
    RunPreservesInv(G, L, Start(G, L));
    TracksBounds(G, f.i, f.genRem, f.volume);
    TracksBounds(L, f.j, f.loadRem, f.volume);
    if f.volume > 0.0 {
      assert |L| > 0;
      TradedPrice(G, L, f);
    }
    NoFurtherTrade(G, L, f);
  }

  /** Once the sweep on merit-ordered lists has traded, its price is the offer
      of the generator that traded last, which sits under the final supply
      cursor or just behind it, and the bid it was matched with last covers
      it: the load under the final demand cursor or just behind it. */
  lemma SweepPrice(G: seq<Participant>, L: seq<Participant>)
    requires MeritOrdered(G, L)
    ensures var f := Run(G, L, Start(G, L));
      f.volume > 0.0 ==>
        && ((f.i < |G| && f.price == G[f.i].price) || (0 < f.i <= |G| && f.price == G[f.i - 1].price))
        && ((f.j < |L| && f.price <= L[f.j].price) || (0 < f.j <= |L| && f.price <= L[f.j - 1].price))
  {
    var f := Run(G, L, Start(G, L));
    StartInv(G, L);
    RunPreservesInv(G, L, Start(G, L));
    if f.volume > 0.0 {
      assert PriceSet(G, f) && BidPriced(L, f);
    }
  }

  /** When the best bid is below the cheapest offer nothing trades. */
  lemma NoOverlapNoTrade(G: seq<Participant>, L: seq<Participant>)
    requires |G| > 0 && |L| > 0 && L[0].price < G[0].price
    ensures Run(G, L, Start(G, L)).volume == 0.0 && Run(G, L, Start(G, L)).price == 0.0
  {
  }

  /** One iteration of the source loop, with its updates written out, is a `Trade`. */
  lemma TradeStep(G: seq<Participant>, L: seq<Participant>, s: Sweep,
                  i: nat, j: nat, genRem: real, loadRem: real, volume: real, price: real)
    requires Feasible(G, L, s)
    requires (i, genRem) == Advance(G, s.i, s.genRem - Min(s.genRem, s.loadRem))
    requires (j, loadRem) == Advance(L, s.j, s.loadRem - Min(s.genRem, s.loadRem))
    requires volume == s.volume + Min(s.genRem, s.loadRem) && price == G[s.i].price
    ensures i <= |G| && j <= |L|
    ensures Run(G, L, Sweep(i, j, genRem, loadRem, volume, price)) == Run(G, L, s)
  {
    assert Trade(G, L, s) == Sweep(i, j, genRem, loadRem, volume, price);
  }

  /** The sweep as the source runs it (lines 86-123). */
  method MatchingSweep(G: seq<Participant>, L: seq<Participant>) returns (price: real, volume: real)
    requires MeritOrdered(G, L)
    ensures price == Run(G, L, Start(G, L)).price && volume == Run(G, L, Start(G, L)).volume
    ensures 0.0 <= volume <= PrevSum(G, |G|) && volume <= PrevSum(L, |L|)
    ensures volume == 0.0 ==> price == 0.0
    ensures volume > 0.0 ==> (exists k :: 0 <= k < |G| && price == G[k].price) && price <= L[0].price
  {
    volume := 0.0;
    price := 0.0;
    var i: nat, j: nat := 0, 0;
    var genRem := if |G| > 0 then G[0].capacity else 0.0;
    var loadRem := if |L| > 0 then L[0].capacity else 0.0;
    while i < |G| && j < |L|
      invariant i <= |G| && j <= |L|
      invariant Run(G, L, Sweep(i, j, genRem, loadRem, volume, price)) == Run(G, L, Start(G, L))
      decreases |G| - i + |L| - j
    {
      var g := G[i];
      var l := L[j];
      if l.price >= g.price {
        ghost var s := Sweep(i, j, genRem, loadRem, volume, price);
        var tradeQ := Min(genRem, loadRem);
        volume := volume + tradeQ;
        price := g.price;
        genRem := genRem - tradeQ;
        loadRem := loadRem - tradeQ;
        if genRem <= Epsilon {
          i := i + 1;
          if i < |G| { genRem := G[i].capacity; }
        }
        if loadRem <= Epsilon {
          j := j + 1;
          if j < |L| { loadRem := L[j].capacity; }
        }
        TradeStep(G, L, s, i, j, genRem, loadRem, volume, price);
      } else {
        break;
      }
    }
    SweepOutcome(G, L);
  }
}

=== FILE: merit_order.dfy ===
/** Merit order: generators cheapest first, loads highest bid first, equal
    prices broken by ascending id. The clearing engine and the chart builder
    both take their orderings from `MeritOrder`. */
module Ordering {
  import opened MarketTypes

  /** The id comparison used for tie-breaks (`localeCompare`), modelled as the
      code-point lexicographic order: -1, 0 or 1. */
  function IdCompare(a: string, b: string): (c: int)
    ensures -1 <= c <= 1
    ensures c == 0 <==> a == b
  {
    if a == [] then (if b == [] then 0 else -1)
    else if b == [] then 1
    else if a[0] < b[0] then -1
    else if a[0] > b[0] then 1
    else
      assert a == [a[0]] + a[1..] && b == [b[0]] + b[1..];
      IdCompare(a[1..], b[1..])
  }

  lemma {:induction false} IdCompareAntisymmetric(a: string, b: string)
    ensures IdCompare(a, b) == -IdCompare(b, a)
  {
    if a != [] && b != [] && a[0] == b[0] {
      IdCompareAntisymmetric(a[1..], b[1..]);
    }
  }

  lemma {:induction false} IdCompareTransitive(a: string, b: string, c: string)
    requires IdCompare(a, b) <= 0 && IdCompare(b, c) <= 0
    ensures IdCompare(a, c) <= 0
  {
    if a != [] && b != [] && c != [] && a[0] == b[0] && b[0] == c[0] {
      IdCompareTransitive(a[1..], b[1..], c[1..]);
    }
  }

  /** `a` may stand before `b` in the merit order of `role`. */
  predicate Ranked(role: Role, a: Participant, b: Participant) {
    match role
    case Generator => a.price < b.price || (a.price == b.price && IdCompare(a.id, b.id) <= 0)
    case Load => a.price > b.price || (a.price == b.price && IdCompare(a.id, b.id) <= 0)
  }

  /** The comparator handed to `sort`: the price difference, or the id
      comparison when that difference is 0 (the `||` fallback). A result that
      is not positive lets `a` stay before `b`. */
  function Comparator(role: Role, a: Participant, b: Participant): (d: real)
    ensures d <= 0.0 <==> Ranked(role, a, b)
  {
    var diff := if role == Generator then a.price - b.price else b.price - a.price;
    if diff != 0.0 then diff else IdCompare(a.id, b.id) as real
  }

  lemma RankedTotal(role: Role, a: Participant, b: Participant)
    ensures Ranked(role, a, b) || Ranked(role, b, a)
  {
    IdCompareAntisymmetric(a.id, b.id);
  }

  lemma RankedTransitive(role: Role, a: Participant, b: Participant, c: Participant)
    requires Ranked(role, a, b) && Ranked(role, b, c)
    ensures Ranked(role, a, c)
  {
    if a.price == b.price == c.price {
      IdCompareTransitive(a.id, b.id, c.id);
    }
  }

  predicate Sorted(role: Role, s: seq<Participant>) {
    forall m, n :: 0 <= m < n < |s| ==> Ranked(role, s[m], s[n])
  }

  /** Generator prices never fall along the sequence. */
  predicate Ascending(s: seq<Participant>) {
    forall m, n :: 0 <= m < n < |s| ==> s[m].price <= s[n].price
  }

  /** Load bids never rise along the sequence. */
  predicate Descending(s: seq<Participant>) {
    forall m, n :: 0 <= m < n < |s| ==> s[m].price >= s[n].price
  }

  /** Places `x` before the first element it may precede; earlier equal
      elements stay first, as the stable library sort keeps them. */
  function Insert(role: Role, x: Participant, s: seq<Participant>): seq<Participant> {
    if s == [] then [x]
    else if Comparator(role, x, s[0]) <= 0.0 then [x] + s
    else [s[0]] + Insert(role, x, s[1..])
  }

  /** `Array.prototype.sort` with `Comparator`: a stable insertion sort. */
  function Sort(role: Role, s: seq<Participant>): seq<Participant> {
    if s == [] then [] else Insert(role, s[0], Sort(role, s[1..]))
  }

  lemma {:induction false} InsertPermutes(role: Role, x: Participant, s: seq<Participant>)
    ensures multiset(Insert(role, x, s)) == multiset(s) + multiset{x}
  {
    if s != [] && Comparator(role, x, s[0]) > 0.0 {
      InsertPermutes(role, x, s[1..]);
      assert s == [s[0]] + s[1..];
    }
  }

  /** Sorting rearranges and neither adds nor drops a participant. */
  lemma {:induction false} SortPermutes(role: Role, s: seq<Participant>)
    ensures multiset(Sort(role, s)) == multiset(s)
  {
    if s != [] {
      SortPermutes(role, s[1..]);
      InsertPermutes(role, s[0], Sort(role, s[1..]));
      assert s == [s[0]] + s[1..];
    }
  }

  /** A sorted sequence stays sorted under a head ranked before all of it. */
  lemma ConsSorted(role: Role, a: Participant, t: seq<Participant>)
    requires Sorted(role, t)
    requires forall n :: 0 <= n < |t| ==> Ranked(role, a, t[n])
    ensures Sorted(role, [a] + t)
  {
    forall m, n | 0 <= m < n < |[a] + t| ensures Ranked(role, ([a] + t)[m], ([a] + t)[n]) {
      assert ([a] + t)[n] == t[n - 1];
      if m > 0 {
        assert ([a] + t)[m] == t[m - 1];
      }
    }
  }

  lemma {:induction false} InsertSorted(role: Role, x: Participant, s: seq<Participant>)
    requires Sorted(role, s)
    ensures Sorted(role, Insert(role, x, s))
  {
    if s == [] {
    } else if Comparator(role, x, s[0]) <= 0.0 {
      forall k | 0 <= k < |s| ensures Ranked(role, x, s[k]) {
        if k > 0 {
          RankedTransitive(role, x, s[0], s[k]);
        }
      }
      ConsSorted(role, x, s);
    } else {
      var t := Insert(role, x, s[1..]);
      InsertSorted(role, x, s[1..]);
      InsertPermutes(role, x, s[1..]);
      RankedTotal(role, x, s[0]);
      forall n | 0 <= n < |t| ensures Ranked(role, s[0], t[n]) {
        var e := t[n];
        assert e in multiset(t);
        if e != x {
          assert e in multiset(s[1..]);
          var k :| 0 <= k < |s[1..]| && s[1..][k] == e;
          assert s[k + 1] == e;
        }
      }
      ConsSorted(role, s[0], t);
    }
  }

  lemma {:induction false} SortSorted(role: Role, s: seq<Participant>)
    ensures Sorted(role, Sort(role, s))
  {
    if s != [] {
      SortSorted(role, s[1..]);
      InsertSorted(role, s[0], Sort(role, s[1..]));
    }
  }

  /** `participants.filter(p => p.type === role)`, keeping the input order. */
  function Filter(role: Role, ps: seq<Participant>): seq<Participant> {
    if ps == [] then []
    else (if ps[0].role == role then [ps[0]] else []) + Filter(role, ps[1..])
  }

  /** The filter keeps every participant of the role as often as it occurs,
      and no other. */
  lemma {:induction false} FilterCounts(role: Role, ps: seq<Participant>)
    ensures forall p :: multiset(Filter(role, ps))[p] == if p.role == role then multiset(ps)[p] else 0
  {
    if ps != [] {
      FilterCounts(role, ps[1..]);
      assert ps == [ps[0]] + ps[1..];
    }
  }

  /** Sorting a sequence that is already in merit order leaves it as it is. */
  lemma {:induction false} SortIdentity(role: Role, s: seq<Participant>)
    requires Sorted(role, s)
    ensures Sort(role, s) == s
  {
    if s != [] {
      SortIdentity(role, s[1..]);
      if |s| > 1 {
        assert Ranked(role, s[0], s[1]);
      }
      assert [s[0]] + s[1..] == s;
    }
  }

  /** Filtering distributes over concatenation: it keeps the input order. */
  lemma {:induction false} FilterAppend(role: Role, a: seq<Participant>, b: seq<Participant>)
    ensures Filter(role, a + b) == Filter(role, a) + Filter(role, b)
  {
    if a == [] {
      assert a + b == b;
    } else {
      assert (a + b)[1..] == a[1..] + b;
      FilterAppend(role, a[1..], b);
    }
  }

  /** A filter keeps every participant of its role and drops every other one. */
  lemma {:induction false} FilterSelects(role: Role, ps: seq<Participant>)
    ensures (forall p :: p in ps ==> p.role == role) ==> Filter(role, ps) == ps
    ensures (forall p :: p in ps ==> p.role != role) ==> Filter(role, ps) == []
  {
    if ps != [] {
      FilterSelects(role, ps[1..]);
      assert forall p :: p in ps[1..] ==> p in ps;
      assert [ps[0]] + ps[1..] == ps;
    }
  }

  /** Merit order puts generator offers in ascending and load bids in descending price order. */
  lemma SortedPrices(role: Role, s: seq<Participant>)
    requires Sorted(role, s)
    ensures role == Generator ==> Ascending(s)
    ensures role == Load ==> Descending(s)
  {
    forall m, n | 0 <= m < n < |s| ensures Ranked(role, s[m], s[n]) {
    }
  }

  /** The merit order of one side of the market (source lines 4-10 and
      188-194): exactly that role's participants, ranked. */
  function MeritOrder(role: Role, ps: seq<Participant>): (r: seq<Participant>)
    ensures forall p :: multiset(r)[p] == if p.role == role then multiset(ps)[p] else 0
    ensures Sorted(role, r)
    ensures role == Generator ==> Ascending(r)
    ensures role == Load ==> Descending(r)
    ensures AllValid(ps) ==> AllValid(r)
  {
    var r := Sort(role, Filter(role, ps));
    FilterCounts(role, ps);
    SortPermutes(role, Filter(role, ps));
    SortSorted(role, Filter(role, ps));
    SortedPrices(role, r);
    assert forall p :: p in r ==> p in multiset(r);
    r
  }
}

=== FILE: scenarios.dfy ===
/** The default scenario the application starts with (constants.ts): five
    generators and four loads, worked through the merit order, the sweep and
    the allocation. */
module Scenarios {
  import opened MarketTypes
  import opened Ordering
  import opened Matching
  import opened Allocation
  import opened MarketClearing

  /** The default generators (constants.ts lines 5-9) and loads (lines 12-15). */
  const G1 := Participant("g1", "Wind Farm North", Generator, Some(Wind), 150.0, 0.0, "#22c55e")
  const G2 := Participant("g2", "Nuclear Base", Generator, Some(Nuclear), 300.0, 15.0, "#8b5cf6")
  const G3 := Participant("g3", "Coal Plant A", Generator, Some(Coal), 200.0, 35.0, "#475569")
  const G4 := Participant("g4", "Gas Peaker 1", Generator, Some(Gas), 100.0, 65.0, "#f97316")
  const G5 := Participant("g5", "Gas Peaker 2", Generator, Some(Gas), 50.0, 80.0, "#ea580c")
  const L1 := Participant("l1", "City Base Load", Load, None, 400.0, 2000.0, "#3b82f6")
  const L2 := Participant("l2", "Industrial Factory", Load, None, 150.0, 70.0, "#2563eb")
  const L3 := Participant("l3", "Data Center", Load, None, 100.0, 100.0, "#1d4ed8")
  const L4 := Participant("l4", "Smart Charging", Load, None, 80.0, 30.0, "#60a5fa")

  const DefaultSupply: seq<Participant> := [G1, G2, G3, G4, G5]
  const DefaultDemand: seq<Participant> := [L1, L2, L3, L4]
  const Defaults: seq<Participant> := DefaultSupply + DefaultDemand

  /** The default supply list holds only generators and the demand list only loads. */
  lemma SupplyRoles()
    ensures Filter(Generator, DefaultSupply) == DefaultSupply
    ensures Filter(Load, DefaultSupply) == []
  {
    FilterSelects(Generator, DefaultSupply);
    FilterSelects(Load, DefaultSupply);
  }

  lemma DemandRoles()
    ensures Filter(Generator, DefaultDemand) == []
    ensures Filter(Load, DefaultDemand) == DefaultDemand
  {
    FilterSelects(Generator, DefaultDemand);
    FilterSelects(Load, DefaultDemand);
  }

  /** The role filters split the default data back into its two lists. */
  lemma DefaultFilters()
    ensures Filter(Generator, Defaults) == DefaultSupply
    ensures Filter(Load, Defaults) == DefaultDemand
  {
    FilterAppend(Generator, DefaultSupply, DefaultDemand);
    FilterAppend(Load, DefaultSupply, DefaultDemand);
    SupplyRoles();
    DemandRoles();
  }

  /** The default generators are listed cheapest first, each offer strictly above the last. */
  lemma SupplySorted()
    ensures Sorted(Generator, DefaultSupply)
  {
  }

  /** The generator merit order of the default data is the list as given. */
  lemma DefaultGenerators()
    ensures Generators(Defaults) == DefaultSupply
  {
    DefaultFilters();
    SupplySorted();
    SortIdentity(Generator, DefaultSupply);
  }

  /** Sorting the default loads by descending bid moves the data centre (100)
      ahead of the factory (70). */
  lemma DemandSort()
    ensures Sort(Load, DefaultDemand) == [L1, L3, L2, L4]
  {
    assert Sort(Load, [L3, L4]) == [L3, L4] by {
      assert [L3, L4][1..] == [L4];
      assert Sort(Load, [L4]) == [L4];
    }
    assert Insert(Load, L2, [L3, L4]) == [L3, L2, L4] by {
      assert [L3, L4][1..] == [L4];
      assert Insert(Load, L2, [L4]) == [L2, L4];
    }
    assert Sort(Load, [L2, L3, L4]) == [L3, L2, L4] by {
      assert [L2, L3, L4][1..] == [L3, L4];
    }
    assert DefaultDemand[1..] == [L2, L3, L4];
  }

  /** The load merit order of the default data. */
  lemma DefaultLoads()
    ensures Loads(Defaults) == [L1, L3, L2, L4]
  {
    DefaultFilters();
    DemandSort();
  }

  /** The loads of the default data in merit order. */
  const DemandOrder: seq<Participant> := [L1, L3, L2, L4]

  /* The sweep on the default merit orders, one trade at a time: 150 MW of
     wind at 0, 250 and then 50 MW of nuclear at 15, 50 and then 150 MW of
     coal at 35; the smart-charging bid of 30 is below the gas offer of 65. */

  lemma SweepStep1()
    ensures Run(DefaultSupply, DemandOrder, Sweep(0, 0, 150.0, 400.0, 0.0, 0.0))
         == Run(DefaultSupply, DemandOrder, Sweep(1, 0, 300.0, 250.0, 150.0, 0.0))
  {
  }

  lemma SweepStep2()
    ensures Run(DefaultSupply, DemandOrder, Sweep(1, 0, 300.0, 250.0, 150.0, 0.0))
         == Run(DefaultSupply, DemandOrder, Sweep(1, 1, 50.0, 100.0, 400.0, 15.0))
  {
  }

  lemma SweepStep3()
    ensures Run(DefaultSupply, DemandOrder, Sweep(1, 1, 50.0, 100.0, 400.0, 15.0))
         == Run(DefaultSupply, DemandOrder, Sweep(2, 1, 200.0, 50.0, 450.0, 15.0))
  {
  }

  lemma SweepStep4()
    ensures Run(DefaultSupply, DemandOrder, Sweep(2, 1, 200.0, 50.0, 450.0, 15.0))
         == Run(DefaultSupply, DemandOrder, Sweep(2, 2, 150.0, 150.0, 500.0, 35.0))
  {
  }

  lemma SweepStep5()
    ensures Run(DefaultSupply, DemandOrder, Sweep(2, 2, 150.0, 150.0, 500.0, 35.0))
         == Sweep(3, 3, 100.0, 80.0, 650.0, 35.0)
  {
  }

  /** The sweep on the default data ends with 650 MW cleared at 35. */
  lemma DefaultSweep()
    ensures Run(DefaultSupply, DemandOrder, Start(DefaultSupply, DemandOrder)) == Sweep(3, 3, 100.0, 80.0, 650.0, 35.0)
  {
    SweepStep1();
    SweepStep2();
    SweepStep3();
    SweepStep4();
    SweepStep5();
  }

  /** The generator entries at 650 MW and 35 $/MWh: revenue is quantity times
      35, surplus is quantity times 35 less the offer. */
  const SupplyOrders: seq<ClearedOrder> := [
    ClearedOrder("g1", 150.0, 5250.0, 0.0, 5250.0),
    ClearedOrder("g2", 300.0, 10500.0, 0.0, 6000.0),
    ClearedOrder("g3", 200.0, 7000.0, 0.0, 0.0),
    ClearedOrder("g4", 0.0, 0.0, 0.0, 0.0),
    ClearedOrder("g5", 0.0, 0.0, 0.0, 0.0)]

  /** The load entries, in load merit order: cost is quantity times 35,
      surplus is quantity times the bid less 35. */
  const DemandOrders: seq<ClearedOrder> := [
    ClearedOrder("l1", 400.0, 0.0, 14000.0, 786000.0),
    ClearedOrder("l3", 100.0, 0.0, 3500.0, 6500.0),
    ClearedOrder("l2", 150.0, 0.0, 5250.0, 5250.0),
    ClearedOrder("l4", 0.0, 0.0, 0.0, 0.0)]

  lemma DefaultsValid()
    ensures AllValid(Defaults) && AllValid(DefaultSupply) && AllValid(DemandOrder)
  {
  }

  /** The allocation of 650 MW at 35 over the default generators. */
  lemma SupplyAllocation()
    ensures AllValid(DefaultSupply)
    ensures Entries(Generator, DefaultSupply, 650.0, 35.0) == SupplyOrders
  {
    assert PrevSum(DefaultSupply, 1) == 150.0;
    assert PrevSum(DefaultSupply, 2) == 450.0;
    assert PrevSum(DefaultSupply, 3) == 650.0;
    assert PrevSum(DefaultSupply, 4) == 750.0;
    assert EntriesUpTo(Generator, DefaultSupply, 1, 650.0, 35.0) == SupplyOrders[..1];
    assert EntriesUpTo(Generator, DefaultSupply, 2, 650.0, 35.0) == SupplyOrders[..2];
    assert EntriesUpTo(Generator, DefaultSupply, 3, 650.0, 35.0) == SupplyOrders[..3];
    assert EntriesUpTo(Generator, DefaultSupply, 4, 650.0, 35.0) == SupplyOrders[..4];
    assert EntriesUpTo(Generator, DefaultSupply, 5, 650.0, 35.0) == SupplyOrders[..5];
  }

  /** The allocation of 650 MW at 35 over the default loads. */
  lemma DemandAllocation()
    ensures AllValid(DemandOrder)
    ensures Entries(Load, DemandOrder, 650.0, 35.0) == DemandOrders
  {
    assert PrevSum(DemandOrder, 1) == 400.0;
    assert PrevSum(DemandOrder, 2) == 500.0;
    assert PrevSum(DemandOrder, 3) == 650.0;
    assert EntriesUpTo(Load, DemandOrder, 1, 650.0, 35.0) == DemandOrders[..1];
    assert EntriesUpTo(Load, DemandOrder, 2, 650.0, 35.0) == DemandOrders[..2];
    assert EntriesUpTo(Load, DemandOrder, 3, 650.0, 35.0) == DemandOrders[..3];
    assert EntriesUpTo(Load, DemandOrder, 4, 650.0, 35.0) == DemandOrders[..4];
  }

  /** 11250 of surplus on the generator side and 797750 on the load side. */
  lemma DefaultSurplus()
    ensures TotalSurplus(SupplyOrders + DemandOrders) == 809000.0
  {
    TotalSurplusAppend(SupplyOrders, DemandOrders);
    assert TotalSurplus(SupplyOrders[..1]) == 5250.0;
    assert SupplyOrders[..2][..1] == SupplyOrders[..1];
    assert TotalSurplus(SupplyOrders[..2]) == 11250.0;
    assert SupplyOrders[..3][..2] == SupplyOrders[..2];
    assert TotalSurplus(SupplyOrders[..3]) == 11250.0;
    assert SupplyOrders[..4][..3] == SupplyOrders[..3];
    assert TotalSurplus(SupplyOrders[..4]) == 11250.0;
    assert SupplyOrders[..5][..4] == SupplyOrders[..4];
    assert TotalSurplus(SupplyOrders[..5]) == 11250.0;
    assert SupplyOrders[..5] == SupplyOrders;
    assert TotalSurplus(DemandOrders[..1]) == 786000.0;
    assert DemandOrders[..2][..1] == DemandOrders[..1];
    assert TotalSurplus(DemandOrders[..2]) == 792500.0;
    assert DemandOrders[..3][..2] == DemandOrders[..2];
    assert TotalSurplus(DemandOrders[..3]) == 797750.0;
    assert DemandOrders[..4][..3] == DemandOrders[..3];
    assert TotalSurplus(DemandOrders[..4]) == 797750.0;
    assert DemandOrders[..4] == DemandOrders;
  }

  /** On the default data the best bid (2000) covers the cheapest offer (0),
      so the exploratory loop never exits. */
  lemma DefaultScenarioStalls()
    ensures Stalls(Generators(Defaults), Loads(Defaults))
  {
    DefaultGenerators();
    DefaultLoads();
  }

  /** On the default data the sweep clears 650 MW at 35 $/MWh: wind, nuclear
      and coal run in full, the gas peakers not at all, the smart-charging load
      is left out, and the market surplus is 809000. */
  lemma DefaultScenarioClears()
    ensures AllValid(Defaults)
    ensures Clearing(Defaults) == ClearingResult(35.0, 650.0, SupplyOrders + DemandOrders, 809000.0)
  {
    DefaultsValid();
    DefaultGenerators();
    DefaultLoads();
    DefaultSweep();
    SupplyAllocation();
    DemandAllocation();
    DefaultSurplus();
  }

  /* Two markets that differ by one tiny generator offering below the price.
     A sweep that leaves a load block with at most Epsilon MW treats the block
     as exhausted, so the cheap 0.001 MW block costs the load its last 0.0005 MW. */
  const Tiny := Participant("t", "Tiny", Generator, None, 0.001, 5.0, "")
  const Base := Participant("b", "Base", Generator, None, 100.0, 10.0, "")
  const Peak := Participant("p", "Peak", Generator, None, 100.0, 12.0, "")
  const Bid := Participant("d", "Demand", Load, None, 100.0015, 20.0, "")

  lemma ThresholdSweepWithout()
    ensures Run([Base, Peak], [Bid], Start([Base, Peak], [Bid])) == Sweep(1, 1, 99.9985, 0.0, 100.0015, 12.0)
  {
    assert Run([Base, Peak], [Bid], Sweep(0, 0, 100.0, 100.0015, 0.0, 0.0))
        == Run([Base, Peak], [Bid], Sweep(1, 0, 100.0, 0.0015, 100.0, 10.0));
    assert Run([Base, Peak], [Bid], Sweep(1, 0, 100.0, 0.0015, 100.0, 10.0))
        == Run([Base, Peak], [Bid], Sweep(1, 1, 99.9985, 0.0, 100.0015, 12.0));
  }

  lemma ThresholdSweepWith()
    ensures Run([Tiny, Base, Peak], [Bid], Start([Tiny, Base, Peak], [Bid])) == Sweep(2, 1, 100.0, 0.0005, 100.001, 10.0)
  {
    assert Run([Tiny, Base, Peak], [Bid], Sweep(0, 0, 0.001, 100.0015, 0.0, 0.0))
        == Run([Tiny, Base, Peak], [Bid], Sweep(1, 0, 100.0, 100.0005, 0.001, 5.0));
    assert Run([Tiny, Base, Peak], [Bid], Sweep(1, 0, 100.0, 100.0005, 0.001, 5.0))
        == Run([Tiny, Base, Peak], [Bid], Sweep(2, 1, 100.0, 0.0005, 100.001, 10.0));
  }

  /** Without the tiny offer, the role filters split the market into [Base, Peak] and [Bid]. */
  lemma ThresholdFilters()
    ensures Filter(Generator, [Base, Peak, Bid]) == [Base, Peak]
    ensures Filter(Load, [Base, Peak, Bid]) == [Bid]
  {
    assert [Base, Peak] + [Bid] == [Base, Peak, Bid];
    FilterAppend(Generator, [Base, Peak], [Bid]);
    FilterAppend(Load, [Base, Peak], [Bid]);
    FilterSelects(Generator, [Base, Peak]);
    FilterSelects(Load, [Base, Peak]);
    FilterSelects(Generator, [Bid]);
    FilterSelects(Load, [Bid]);
  }

  /** With the tiny offer, the role filters split the market into [Tiny, Base, Peak] and [Bid]. */
  lemma TinyFilters()
    ensures Filter(Generator, [Tiny, Base, Peak, Bid]) == [Tiny, Base, Peak]
    ensures Filter(Load, [Tiny, Base, Peak, Bid]) == [Bid]
  {
    assert [Tiny] + [Base, Peak, Bid] == [Tiny, Base, Peak, Bid];
    FilterAppend(Generator, [Tiny], [Base, Peak, Bid]);
    FilterAppend(Load, [Tiny], [Base, Peak, Bid]);
    ThresholdFilters();
  }

  /** Without the tiny offer, both sides are already in merit order. */
  lemma ThresholdMeritOrders()
    ensures Generators([Base, Peak, Bid]) == [Base, Peak] && Loads([Base, Peak, Bid]) == [Bid]
  {
    ThresholdFilters();
    SortIdentity(Generator, [Base, Peak]);
    SortIdentity(Load, [Bid]);
  }

  /** With the tiny offer, both sides are already in merit order. */
  lemma TinyMeritOrders()
    ensures Generators([Tiny, Base, Peak, Bid]) == [Tiny, Base, Peak] && Loads([Tiny, Base, Peak, Bid]) == [Bid]
  {
    TinyFilters();
    SortIdentity(Generator, [Tiny, Base, Peak]);
    SortIdentity(Load, [Bid]);
  }

  /** Without the tiny offer, 100.0015 MW clear at 12. */
  lemma ThresholdClears()
    ensures AllValid([Base, Peak, Bid])
    ensures Clearing([Base, Peak, Bid]).clearingPrice == 12.0
    ensures Clearing([Base, Peak, Bid]).clearedVolume == 100.0015
  {
    ThresholdMeritOrders();
    ThresholdSweepWithout();
  }

  /** With the tiny offer, only 100.001 MW clear. */
  lemma TinyClears()
    ensures AllValid([Tiny, Base, Peak, Bid])
    ensures Clearing([Tiny, Base, Peak, Bid]).clearedVolume == 100.001
  {
    TinyMeritOrders();
    ThresholdSweepWith();
  }

  /** Adding a 0.001 MW offer at 5, below the clearing price of 12, lowers the
      cleared volume from 100.0015 to 100.001 MW: the cheap block shifts the
      load's last 0.0005 MW under the Epsilon threshold. */
  lemma ThresholdLosesVolume()
    ensures AllValid([Base, Peak, Bid]) && AllValid([Tiny, Base, Peak, Bid])
    ensures Tiny.role == Generator && Tiny.price < Clearing([Base, Peak, Bid]).clearingPrice
    ensures Clearing([Tiny, Base, Peak, Bid]).clearedVolume < Clearing([Base, Peak, Bid]).clearedVolume
  {
    ThresholdClears();
    TinyClears();
  }
}
